=== FILE: README.md ===
# kstart phase one, modelled in Dafny

This project models phase one of the koble-fs boot agent `kstart`
(`pkg/startup/phase1.go`), which runs inside a lab machine before anything
else. The agent does the following, in order:

1. It reads its configuration from the kernel command line, or from the
   environment of process 1, and picks the VM driver.
2. For UML guests only, it mounts the host's lab and runtime directories and
   renames the virtual `vec<n>` links to `eth<n>`.
3. It assigns interface addresses and a default route.
4. It sets the host name and the loopback line of `/etc/hosts`, once only,
   guarded by a marker file.
5. It overlays the shared and per-machine file trees onto `/`.

The model has two layers.

* **Specification functions**, one module per concern:
  * `Config`: option scanning, decoding and driver choice.
  * `Os`: the machine state and the foreign calls.
  * `Mounts`, `Network`, `Identity` and `Injection`.
  * `Boot`: the fail-fast stage sequence.

  Each Go function becomes a function from a machine `State` to a `Step`.
  A `Step` is the outcome (`Pass` or `Fail(error)`) plus the state left
  behind. The properties are proved about these functions.
* **An imperative model**: the class `Startup.Guest`. Its fields are the
  filesystem map, the kernel link table, the routes, the mounts and the
  kernel host name. Each Go function of the stages becomes a method with
  the same calls, loops and early returns. Each method is proved to return
  the outcome, and leave the state, that its specification function gives.
  `StartPhaseOne` is split into helper methods: `RunStages` for the whole
  sequence, `RunCommonStages` for the three stages every driver runs, and
  `RunOneStage`, which makes one of those three calls, chosen by a
  `Boot.Stage` value. The Go code has two `if conf.Driver == "UML"` blocks
  in a row, and `RunStages` merges them into one branch. This is the same
  thing, because nothing between them changes the configuration. The two
  option scans (`Config.ParseCmdline`, `Config.LoadEnv`) are loops proved
  against the fold that specifies them.

Foreign calls are steps that either succeed with a stated effect or fail. A
call fails when its `Call` value is in the environment's `failing` set. It
also fails where the kernel itself refuses:

* reading a missing file or a directory;
* writing onto a directory;
* mounting onto a missing or non-directory target;
* renaming a link onto a name that is taken.

`net.ParseIP` and `netlink.ParseAddr` are abstract predicates
(`Env.validIP`, `Env.validCIDR`). The koanf decoder is an abstract `Decoder`
(`load`, `unmarshal`). The three operating-system reads (`/proc/cmdline`,
`/proc/1/environ`, `os.Hostname()`) are the parameter `BootSources`. Go's
map iteration order in `setupIfaces` is modelled as an arbitrary choice of
the next key (`:|`), so what is proved about that loop holds for every
order.

## Model

| member | source | states |
|---|---|---|
| Strings.Split | pkg/startup/phase1.go:51 | `strings.Split` with a one-character separator: one more piece than separators, and no piece contains the separator |
| Strings.JoinSplit | pkg/startup/phase1.go:51 | joining the pieces with the separator gives back the string |
| Strings.SplitJoin | pkg/startup/phase1.go:51 | splitting a join of separator-free pieces gives back the pieces |
| Strings.SplitInTwo | pkg/startup/phase1.go:51-52 | a string splits into exactly two pieces iff it holds exactly one separator, and is then `p0 + sep + p1` |
| Strings.SplitPair | pkg/startup/phase1.go:219-220 | two separator-free halves around one separator split back into those halves |
| Strings.Fields | pkg/startup/phase1.go:37 | `strings.Fields` yields only non-empty runs without white space (pinned down on every input by the lemmas below) |
| Strings.FieldsOfWordSpace | pkg/startup/phase1.go:37 | a word followed by a space is the first field of the line |
| Strings.FieldsSkipsSpaces | pkg/startup/phase1.go:37 | leading white space of any kind and length adds no field |
| Strings.FieldsOfWordSpaces | pkg/startup/phase1.go:37 | a word ended by any non-empty run of white space (spaces, tabs, newlines) is the first field |
| Strings.FieldsIgnoresTrailingSpaces | pkg/startup/phase1.go:36-37 | trailing white space, such as the newline that ends `/proc/cmdline`, adds no field |
| Strings.FieldsUnwords | pkg/startup/phase1.go:37 | `Fields` recovers the words of a line of words joined by single spaces |
| Config.FoldErrPersists | pkg/startup/phase1.go:52-54 | once the scan has failed on a prefix of the tokens, the whole scan fails with the same error (the early return) |
| Config.FoldRejects | pkg/startup/phase1.go:39-56 | a scan whose steps write at most one key fails iff some entry is malformed, with the first malformed entry's error |
| Config.FoldLastWins | pkg/startup/phase1.go:39-56 | after a successful scan a key is present iff some entry writes it, and it holds the last such entry's value |
| Config.Fold | pkg/startup/phase1.go:39-56 | the scan over no entries succeeds with the empty option map, so only an entry can make it fail |
| Config.CmdlineStepShaped | pkg/startup/phase1.go:40-55 | one command-line iteration errors exactly on a malformed `kstart:` token, and otherwise writes `quiet`, `name` or one `kstart:` key |
| Config.CmdlineStep | pkg/startup/phase1.go:40-55 | one token is rejected exactly when it is a malformed `kstart:` token, with an error naming its remainder, and otherwise makes at most its own write |
| Config.CmdlineRejectsMalformed | pkg/startup/phase1.go:47-54 | the command line is rejected iff a `kstart:` token's remainder has zero or several `=` (bare `kstart:` included); the error names the first such remainder |
| Config.CmdlineLastWins | pkg/startup/phase1.go:40-55 | the command-line option map is last-wins across `quiet`, `name=<v>` (non-empty v) and `kstart:<k>=<v>` tokens |
| Config.ParseCmdline | pkg/startup/phase1.go:32-65 | the loop with its early return computes `CmdlineConf`: a read error, a scan error, a load error or an unmarshal error is returned, otherwise the decoded configuration |
| Config.EnvStepShaped | pkg/startup/phase1.go:74-83 | one environment iteration skips non-prefixed or short entries, errors on a malformed prefixed entry, and otherwise writes one key |
| Config.EnvStep | pkg/startup/phase1.go:75-82 | one entry is rejected exactly when it is a malformed `kstart-` entry, with an error naming the whole entry, and otherwise makes at most its own write |
| Config.EnvRejectsMalformed | pkg/startup/phase1.go:75-81 | the environment is rejected iff a `kstart-` entry of length at least 8 lacks exactly one `=`; the error names that whole entry |
| Config.EnvLastWins | pkg/startup/phase1.go:74-83 | the environment option map is last-wins |
| Config.BarePrefixAsymmetry | pkg/startup/phase1.go:47-81 | a bare `kstart:` on the command line is a format error, and a bare `kstart-` in the environment is skipped |
| Config.EnvSkipped | pkg/startup/phase1.go:75-77 | removing an entry the environment scan skips does not change its result |
| Config.EnvConf | pkg/startup/phase1.go:67-100 | a successful environment configuration names the UML or podman driver |
| Config.LoadEnv | pkg/startup/phase1.go:67-100 | the loop computes `EnvConf`: the host name from `os.Hostname()` is preset, and the driver check comes before the unmarshal error |
| Config.ResolveConf | pkg/startup/phase1.go:102-112 | a command-line error is returned unchanged, and any configuration returned names UML or podman |
| Config.UmlCmdlineIgnoresEnvironment | pkg/startup/phase1.go:106-108 | with a UML command line, the environment and the OS host name are not read: they do not affect the result |
| Config.NonUmlCmdlineUsesEnvironment | pkg/startup/phase1.go:109-111 | with any other command-line driver, the result is the environment's |
| Config.LoadConf | pkg/startup/phase1.go:102-112 | the method computes `ResolveConf` (which of its inputs it depends on is stated by the two lemmas above) |
| Os.ReadFile | pkg/startup/phase1.go:124-127 | `os.ReadFile` succeeds iff the path is a regular file and the call does not fail, and returns its contents |
| Os.WriteFile | pkg/startup/phase1.go:116 | `os.WriteFile` replaces the file on success and changes nothing on failure |
| Os.Mkdir | pkg/startup/phase1.go:188 | `os.Mkdir` with its error ignored creates the directory, or changes nothing |
| Os.Stat | pkg/startup/phase1.go:133-139 | `os.Stat` reports present iff the path exists and the call works, absent iff it does not exist and the call works, and any other error iff the call fails |
| Os.Lookup | pkg/startup/phase1.go:202 | lookup by name returns the position of the first link with that name, or none when no link has it |
| Identity.SetHostname | pkg/startup/phase1.go:114-121 | `hostname` succeeds iff the write and `sethostname` succeed, and then both the file and the kernel host name equal the name |
| Identity.PrependHosts | pkg/startup/phase1.go:123-130 | `hostsFile` succeeds iff the read and the write do; it prepends `127.0.0.1 <name>\n` to the old contents, or changes nothing |
| Identity.HostsLine | pkg/startup/phase1.go:128 | the hosts line starts with `127.0.0.1 `, ends with a newline, and for a host name without white space has exactly the fields `127.0.0.1` and the name |
| Identity.SetupHosts | pkg/startup/phase1.go:132-148 | an existing marker is a no-op; a stat error is returned unchanged; from an unconfigured state the call succeeds iff the host name, the hosts file and the marker are all written; the first failure is returned with the state it left, and a failing marker write keeps the host name and the prepended hosts line; the marker exists afterwards iff the call succeeded; success means all three effects on the original `/etc/hosts` |
| Identity.SetupHostsIdempotent | pkg/startup/phase1.go:132-148 | after a successful call, a later call (with any environment in which the marker stat works, and any name) succeeds and changes nothing |
| Identity.SetupHostsTwiceIsOnce | pkg/startup/phase1.go:132-148 | two successful calls in a row, with any names, leave what the first call left |
| Injection.Copied | pkg/startup/phase1.go:160 | the tree moved to the root holds exactly the tree's non-root entries, at their rebased paths |
| Injection.Overlay | pkg/startup/phase1.go:160 | `cp.Copy(root, "/")` is a right-biased union: copied paths take the tree's entries, and all other paths are kept |
| Injection.CopyTree | pkg/startup/phase1.go:155-164 | a missing tree is skipped without error; the stage fails iff the stat fails, or the tree exists and the copy fails, with the stat or the copy error; a failure changes nothing; otherwise the tree is overlaid |
| Injection.CopyInFiles | pkg/startup/phase1.go:150-178 | the call fails iff the shared or the machine stage fails; a failing shared stage stops before the machine tree; after the shared stage, the machine stage runs on what it left and nothing is undone, and a machine-tree stat or copy error is returned at once; without a shared tree only the machine tree is copied; nothing but the filesystem changes |
| Injection.MachineDir | pkg/startup/phase1.go:166 | the machine tree is `/hostlab/<hostname>` for a non-empty host name, and `/hostlab` for the empty one |
| Injection.MachineTreeWins | pkg/startup/phase1.go:165-176 | a path the machine tree provides ends up with the machine tree's entry, whatever the shared tree held there |
| Injection.SharedTreeFillsIn | pkg/startup/phase1.go:154-176 | a shared-tree path the machine tree does not provide ends up with the shared entry |
| Network.RenameRuleMeaning | pkg/startup/phase1.go:257-259 | `vec<s>` is renamed to `eth<s>` exactly when `s` is non-empty, and `eth` names are never renamed |
| Network.RenameRule | pkg/startup/phase1.go:257-259 | a name is renamed iff it is longer than `vec` and starts with it; the new name has the same length and the same suffix after `eth` |
| Network.RenameLink | pkg/startup/phase1.go:257-266 | only a `vec` link changes, and only in name and alias; it takes the new name iff that name is free and the rename call succeeds; the alias becomes the old name iff its own call succeeds |
| Network.RenameRuleInjective | pkg/startup/phase1.go:257-259 | distinct names are never renamed to the same name |
| Network.RenamedNameIsFinal | pkg/startup/phase1.go:257-259 | a renamed link's new name is not renamed again |
| Network.Renamed | pkg/startup/phase1.go:255-268 | renaming changes only name and alias; links outside the rule are unchanged; a renamed link has either its old name or its `eth` name |
| Network.RenameVirtualLink | pkg/startup/phase1.go:257-263 | a free `vec<s>` link whose calls succeed becomes `eth<s>` with alias `vec<s>` |
| Network.RenamedKeepsNamesUnique | pkg/startup/phase1.go:255-268 | renaming keeps link names unique |
| Network.TakenAsAtStart | pkg/startup/phase1.go:259 | part way through the loop, a rename target is taken iff it was taken in the list read at the start |
| Network.RenameVecs | pkg/startup/phase1.go:250-270 | only a failure to list the links is returned, with nothing changed; otherwise the links are renamed |
| Network.AssignAddrs | pkg/startup/phase1.go:198-217 | the address stage changes only addresses; each valid entry is added to the link its name finds; an empty address, a failed lookup, parse or add, and a link the lookup does not find are all skipped |
| Network.AssignLink | pkg/startup/phase1.go:199-216 | one link gets the address listed under its name iff that address is non-empty, found, valid and added; otherwise the link is unchanged |
| Network.AssignAt | pkg/startup/phase1.go:199-216 | the link at a position changes only when it is the one the lookup of its name finds, and then as `AssignLink` says |
| Network.AssignAddrsUnique | pkg/startup/phase1.go:198-217 | with unique link names, every link ends up as `AssignLink` of itself: each valid entry is assigned |
| Network.LookupOwnName | pkg/startup/phase1.go:202 | with unique names, looking up a link's own name finds that link |
| Network.AssignAtDrop | pkg/startup/phase1.go:198-217 | removing one map entry changes only the link that entry's key names |
| Network.AssignAddrsAddsOne | pkg/startup/phase1.go:198-217 | handling one more entry changes at most the link its key names, so the result does not depend on the map's order |
| Network.ParseDefRoute | pkg/startup/phase1.go:219-226 | `def_route` is accepted only as `iface:gateway` with separator-free halves and a valid gateway; the format error is raised iff it does not hold exactly one `:`; with one `:` and an invalid gateway the gateway error is raised |
| Network.DefRouteAccepts | pkg/startup/phase1.go:219-226 | every well-formed `iface:gateway` with a valid gateway is accepted with its two halves |
| Network.DefRouteRejectsIPv6 | pkg/startup/phase1.go:219-222 | a gateway containing `:` (every IPv6 literal) is always a format error |
| Network.DefaultRoute | pkg/startup/phase1.go:218-246 | the stage succeeds iff `def_route` parses, its link exists, and the lookup, link-up and route-add calls succeed; a rejected `def_route`, a failed lookup and a failed link-up each return their own error and change nothing; a failed route-add returns its error and leaves the link up; success sets the link up and appends one `0.0.0.0/0` route via the gateway on that link's index |
| Network.SetupIfaces | pkg/startup/phase1.go:196-248 | the address stage never fails; an empty `def_route` adds no route; otherwise the route stage runs on the links the address stage left, and the call succeeds iff the route can be installed; a failure keeps the assigned addresses and adds no route; success leaves the assigned addresses with that link set up, and adds exactly one route; link names never change |
| Mounts.MountDir | pkg/startup/phase1.go:17-20 | a `hostfs` mount succeeds iff the target is a directory and the call does not fail, and it appends exactly that mount |
| Mounts.UmlSetup | pkg/startup/phase1.go:180-194 | only the two mount points may be created, and a missing one is created before its mount is tried; setup succeeds iff each requested mount point is or can be made a directory and its mount succeeds; the failing lab mount, else the failing runtime mount, is the error returned; a failed lab mount makes no mount; a failed runtime mount keeps the lab mount already made; success makes the lab mount iff asked, then the runtime mount |
| Mounts.UmlSetupSucceeds | pkg/startup/phase1.go:180-194 | on a fresh guest where no call fails, setup succeeds with either setting of the lab flag |
| Mounts.UmlSetupNeedsRuntimeDir | pkg/startup/phase1.go:188-192 | if the runtime mount point cannot be created, setup fails |
| Boot.Stages | pkg/startup/phase1.go:277-304 | the two UML stages run iff the driver is UML and come first; interfaces, hosts and files always run last, in that order |
| Boot.RunStage | pkg/startup/phase1.go:277-304 | no stage removes a path; only the two UML stages mount or rename; the rename stage touches only the links (files, mounts, routes and host name are kept) |
| Boot.Sequence | pkg/startup/phase1.go:277-304 | fail-fast: no stages pass with nothing changed, and a first stage that fails is the result, with its state |
| Boot.Run | pkg/startup/phase1.go:277-304 | an empty run passes, and a run of one stage is that stage |
| Boot.SequenceAppend | pkg/startup/phase1.go:277-304 | running two stage lists in a row is running the second on what the first left, unless the first failed |
| Boot.SequenceFailsAtOneStage | pkg/startup/phase1.go:277-304 | fail-fast: a failed run is one stage's failure, on the state left by the stages before it, which all passed |
| Boot.PhaseOne | pkg/startup/phase1.go:272-307 | a configuration error is returned with nothing changed; otherwise the configuration's stages are run |
| Boot.RunKeepsMountsAndNames | pkg/startup/phase1.go:293-304 | the stages other than the two UML ones mount nothing and rename no link |
| Boot.NonUmlLeavesMountsAndNames | pkg/startup/phase1.go:277-292 | a non-UML boot makes no mounts and renames no link |
| Boot.UmlMountsMade | pkg/startup/phase1.go:277-282 | a successful UML boot has made exactly the mounts `umlSetup` asks for |
| Boot.RunKeepsPaths | pkg/startup/phase1.go:293-304 | no stage removes an existing path |
| Boot.RunThroughHostsMarks | pkg/startup/phase1.go:297-300 | a run that passes through the hosts stage leaves the marker file in place |
| Boot.PhaseOneConfigures | pkg/startup/phase1.go:297-304 | a successful phase one had a valid configuration and leaves the marker in place |
| Startup.Guest.Stat | pkg/startup/phase1.go:133 | `os.Stat` on the guest reports present, absent or a failure, as `Os.Stat` |
| Startup.Guest.ReadFile | pkg/startup/phase1.go:124 | reading a file of the guest is `Os.ReadFile` |
| Startup.Guest.WriteFile | pkg/startup/phase1.go:116 | writing a file of the guest is `Os.WriteFile` |
| Startup.Guest.Mkdir | pkg/startup/phase1.go:182 | creating a directory is `Os.Mkdir` |
| Startup.Guest.FindLink | pkg/startup/phase1.go:202 | the scan of the link table finds `Lookup`'s position, which is none iff no link has the name |
| Startup.Guest.MountDir | pkg/startup/phase1.go:17-20 | the method has the outcome and effect of `Mounts.MountDir` |
| Startup.Guest.UmlSetup | pkg/startup/phase1.go:180-194 | the method has the outcome and effect of `Mounts.UmlSetup` |
| Startup.Guest.RenameVecs | pkg/startup/phase1.go:250-270 | the loop over the list read at the start, with the taken check against the current names, has the effect of `Network.RenameVecs` and keeps names unique |
| Startup.Guest.AddAddress | pkg/startup/phase1.go:199-216 | one entry of the address loop adds at most its address to the link its key names |
| Startup.Guest.AssignAddrs | pkg/startup/phase1.go:198-217 | the address loop, taking keys in any order, leaves `Network.AssignAddrs` |
| Startup.Guest.DefaultRoute | pkg/startup/phase1.go:218-246 | the route stage has the outcome and effect of `Network.DefaultRoute` |
| Startup.Guest.SetupIfaces | pkg/startup/phase1.go:196-248 | the method has the outcome and effect of `Network.SetupIfaces` |
| Startup.Guest.Hostname | pkg/startup/phase1.go:114-121 | the method has the outcome and effect of `Identity.SetHostname` |
| Startup.Guest.HostsFile | pkg/startup/phase1.go:123-130 | the method has the outcome and effect of `Identity.PrependHosts` |
| Startup.Guest.SetupHosts | pkg/startup/phase1.go:132-148 | the method has the outcome and effect of `Identity.SetupHosts` |
| Startup.Guest.CopyTree | pkg/startup/phase1.go:155-164 | one stat-then-copy stage has the outcome and effect of `Injection.CopyTree` |
| Startup.Guest.CopyInFiles | pkg/startup/phase1.go:150-178 | the method has the outcome and effect of `Injection.CopyInFiles` |
| Startup.Guest.RunStages | pkg/startup/phase1.go:277-306 | the stage calls with their early returns have the outcome and effect of `Boot.Run` over `Boot.Stages`, and link names stay unique |
| Startup.Guest.RunCommonStages | pkg/startup/phase1.go:293-304 | interfaces, hosts and files with their early returns have the outcome and effect of `Boot.Run` over those three stages |
| Startup.Guest.RunOneStage | pkg/startup/phase1.go:293-304 | one common stage's call has the outcome and effect of `Boot.Run` over that single stage |
| Startup.Guest.StartPhaseOne | pkg/startup/phase1.go:272-307 | the method has the outcome and effect of `Boot.PhaseOne`, and link names stay unique |

## Left out

- Logging (`log.*`), `Shutdown` and `SetLogLevel` are not modelled. Logging has no effect on the outcome. The other two are not part of phase one's boot sequence.
- `pkg/startup/phase2.go` and the command wiring under `cmd/` are not part of this model.
- The operating-system reads (`/proc/cmdline`, `/proc/1/environ`, `os.Hostname()`) are inputs in `Config.BootSources`, not modelled reads.
- koanf's `Load` and `Unmarshal` are the abstract `Config.Decoder`. The model does not decide how keys are nested, how strings are coerced to booleans, or whether an environment `name` overrides the host name preset from `os.Hostname()`.
- `net.ParseIP` and `netlink.ParseAddr` are the abstract predicates `Env.validIP` and `Env.validCIDR`.
- The gateway and the address are kept as their strings. Parsing them into IPs and prefixes is not modelled.
- Os.WriteFile: a failed write leaves the filesystem unchanged. Partially written files are not modelled.
- Injection.CopyTree: a failed copy leaves the filesystem unchanged. `cp.Copy`'s partial copies, symbolic links, permissions and ownership are not modelled.
- Injection.MachineDir: the empty host name gives the path `/hostlab`, where Go gives `/hostlab/`. No other path is canonicalised: the filesystem is a map from path strings to entries.
- Injection.CopyTree: a tree root that is a regular file rather than a directory passes its stat and is overlaid like a directory (normally copying nothing). `cp.Copy` onto `/` would fail there. The model does not distinguish the kind of the root.
- Mounts.MountDir: a mount is recorded in the `mounts` list only. The host's files do not become visible under the mount point in the filesystem map, so a later stat of `/hostlab/shared` sees whatever the map already holds.
- Network.RenameVecs: the kernel's other reasons to refuse a rename (an up link, an over-long name) are folded into the abstract call failure. So is refusing an alias.
- Startup.Guest.RenameVecs: this requires the class invariant that link names are unique. The kernel guarantees it, and the Go code relies on it.
- Link identity is the position in the link table. Interface indexes are carried but are not checked for uniqueness.
- Go strings are byte strings, and the model's strings are sequences of code points. The length tests and slices of the Go code (`len(o) > 5`, `len(v) < 8`, `o[7:]`, `v[7:]`) agree with the model because they only cut after the ASCII prefixes `name=`, `kstart:` and `kstart-`. An option value that is not valid UTF-8 is not modelled.
- Config.Fold: its own contract states only that the empty scan succeeds with the empty map. Its early return and its result are stated by `Config.FoldErrPersists`, `Config.FoldRejects` and `Config.FoldLastWins`.
- Startup.Guest: `StartPhaseOne` is split into `RunStages`, `RunCommonStages` and `RunOneStage`. The two UML blocks of the Go code are merged into one branch, and `RunOneStage` chooses its call by a `Boot.Stage` value, which has no counterpart in the Go code.
- Go's error texts are replaced by the `Results.Error` constructors. The wrapping done with `%w` is not modelled.

=== FILE: boot.dfy ===
/**
 * `StartPhaseOne` (pkg/startup/phase1.go, lines 272-307): load the
 * configuration, then run the stages in a fixed order, stopping at the
 * first one that fails.  The two UML stages run only for the UML driver.
 */
module Boot {
  import opened Results
  import opened Os
  import opened Config
  import Mounts
  import Network
  import Identity
  import Injection

  /** The stages of phase one after the configuration is loaded. */
  datatype Stage = UmlMounts | RenameLinks | Interfaces | Hosts | Files

  /** The stages a configuration runs, in order. */
  function Stages(conf: VConf): (s: seq<Stage>)
    ensures UmlMounts in s <==> conf.driver == UmlDriver
    ensures RenameLinks in s <==> conf.driver == UmlDriver
    ensures |s| >= 3 && s[|s| - 3..] == [Interfaces, Hosts, Files]
    ensures conf.driver == UmlDriver ==> s[..2] == [UmlMounts, RenameLinks]
  {
    (if conf.driver == UmlDriver then [UmlMounts, RenameLinks] else []) + [Interfaces, Hosts, Files]
  }

  /** One stage of `StartPhaseOne`, and what each stage leaves alone. */
  function RunStage(st: State, env: Env, conf: VConf, stage: Stage): (r: Step)
    // no stage removes a path
    ensures forall p :: p in st.fs ==> p in r.st.fs
    // only the UML stages mount or rename
    ensures stage != UmlMounts && stage != RenameLinks ==>
              r.st.mounts == st.mounts && SameNames(r.st.links, st.links)
    ensures stage == RenameLinks ==>
              r.st.fs == st.fs && r.st.mounts == st.mounts && r.st.routes == st.routes && r.st.hostname == st.hostname
  {
    match stage
    case UmlMounts => Mounts.UmlSetup(st, env, conf.hostLab)
    case RenameLinks => Network.RenameVecs(st, env)
    case Interfaces => Network.SetupIfaces(st, env, conf.interfaces, conf.defaultRoute)
    case Hosts => Identity.SetupHosts(st, env, conf.hostName)
    case Files => Injection.CopyInFiles(st, env, conf.hostName)
  }

  /** The stage semantics of one configuration, as a value. */
  function Stepper(env: Env, conf: VConf): (State, Stage) -> Step {
    (s: State, g: Stage) => RunStage(s, env, conf, g)
  }

  /**
   * Take the stages in order with the given semantics, stopping at the
   * first failure.  The lemmas below hold for any semantics.
   */
  function Sequence(st: State, step: (State, Stage) -> Step, stages: seq<Stage>): (r: Step)
    ensures stages == [] ==> r == Step(Pass, st)
    // fail-fast: a first stage that fails is the result, with its state
    ensures stages != [] && step(st, stages[0]).out.Fail? ==> r == step(st, stages[0])
    decreases |stages|
  {
    if stages == [] then Step(Pass, st)
    else
      var s := step(st, stages[0]);
      if s.out.Fail? then s else Sequence(s.st, step, stages[1..])
  }

  /** Run the stages of one configuration in order and return the first failure. */
  function Run(st: State, env: Env, conf: VConf, stages: seq<Stage>): (r: Step)
    ensures stages == [] ==> r == Step(Pass, st)
    ensures |stages| == 1 ==> r == RunStage(st, env, conf, stages[0])
  {
    assert |stages| == 1 ==> stages[1..] == [];
    Sequence(st, Stepper(env, conf), stages)
  }

  /** A stage that passes hands its state to the stages after it. */
  lemma SequencePassed(st: State, step: (State, Stage) -> Step, stage: Stage, more: seq<Stage>)
    requires step(st, stage).out.Pass?
    ensures Sequence(st, step, [stage] + more) == Sequence(step(st, stage).st, step, more)
  {
    assert ([stage] + more)[1..] == more;
  }

  /** A stage that fails ends the run with its own outcome and state. */
  lemma SequenceFailed(st: State, step: (State, Stage) -> Step, stage: Stage, more: seq<Stage>)
    requires step(st, stage).out.Fail?
    ensures Sequence(st, step, [stage] + more) == step(st, stage)
  {
  }

  /** Running `a + b` runs `a`, then `b` on what `a` left unless `a` failed. */
  lemma {:induction false} SequenceAppend(st: State, step: (State, Stage) -> Step, a: seq<Stage>, b: seq<Stage>)
    ensures Sequence(st, step, a + b) ==
              if Sequence(st, step, a).out.Fail? then Sequence(st, step, a)
              else Sequence(Sequence(st, step, a).st, step, b)
    decreases |a|
  {
    if a != [] {
      assert (a + b)[0] == a[0] && (a + b)[1..] == a[1..] + b;
      var s := step(st, a[0]);
      if s.out.Pass? {
        SequenceAppend(s.st, step, a[1..], b);
      }
    } else {
      assert a + b == b;
    }
  }

  /**
   * Fail-fast: a failed run is the failure of one stage, run on the state
   * the stages before it left after all of them passed.
   */
  lemma {:induction false} SequenceFailsAtOneStage(st: State, step: (State, Stage) -> Step, stages: seq<Stage>)
    requires Sequence(st, step, stages).out.Fail?
    ensures exists k :: 0 <= k < |stages|
              && Sequence(st, step, stages[..k]).out.Pass?
              && step(Sequence(st, step, stages[..k]).st, stages[k]) == Sequence(st, step, stages)
    decreases |stages|
  {
    assert stages[..0] == [];
    var s := step(st, stages[0]);
    if s.out.Pass? {
      var rest := stages[1..];
      SequenceFailsAtOneStage(s.st, step, rest);
      var k :| 0 <= k < |rest|
                && Sequence(s.st, step, rest[..k]).out.Pass?
                && step(Sequence(s.st, step, rest[..k]).st, rest[k]) == Sequence(s.st, step, rest);
      assert stages[..k + 1] == [stages[0]] + rest[..k];
      SequenceAppend(st, step, [stages[0]], rest[..k]);
      assert [stages[0]][1..] == [];
      assert stages[k + 1] == rest[k];
    }
  }

  /** `StartPhaseOne`. */
  function PhaseOne(st: State, env: Env, src: BootSources, kf: Decoder): (r: Step)
    ensures ResolveConf(src, kf).Err? ==> r == Step(Fail(ResolveConf(src, kf).error), st)
    ensures ResolveConf(src, kf).Ok? ==>
              r == Run(st, env, ResolveConf(src, kf).value, Stages(ResolveConf(src, kf).value))
  {
    match ResolveConf(src, kf)
    case Err(e) => Step(Fail(e), st)
    case Ok(conf) => Run(st, env, conf, Stages(conf))
  }

  /** The two link lists hold the same names at the same positions. */
  predicate SameNames(a: seq<Link>, b: seq<Link>) {
    |a| == |b| && forall j :: 0 <= j < |a| ==> a[j].name == b[j].name
  }

  /** The stages other than the two UML ones mount nothing and rename no link. */
  lemma {:induction false} RunKeepsMountsAndNames(st: State, env: Env, conf: VConf, stages: seq<Stage>)
    requires forall i :: 0 <= i < |stages| ==> stages[i] != UmlMounts && stages[i] != RenameLinks
    ensures Run(st, env, conf, stages).st.mounts == st.mounts
    ensures SameNames(Run(st, env, conf, stages).st.links, st.links)
    decreases |stages|
  {
    if stages != [] {
      var s := RunStage(st, env, conf, stages[0]);
      assert Stepper(env, conf)(st, stages[0]) == s;
      assert s.st.mounts == st.mounts && SameNames(s.st.links, st.links);
      if s.out.Pass? {
        RunKeepsMountsAndNames(s.st, env, conf, stages[1..]);
      }
    }
  }

  /** Outside UML nothing is mounted and no link is renamed. */
  lemma NonUmlLeavesMountsAndNames(st: State, env: Env, src: BootSources, kf: Decoder)
    requires ResolveConf(src, kf).Ok? && ResolveConf(src, kf).value.driver != UmlDriver
    ensures PhaseOne(st, env, src, kf).st.mounts == st.mounts
    ensures SameNames(PhaseOne(st, env, src, kf).st.links, st.links)
  {
    var conf := ResolveConf(src, kf).value;
    RunKeepsMountsAndNames(st, env, conf, Stages(conf));
  }

  /** A successful UML boot has made exactly the mounts `umlSetup` asks for. */
  lemma UmlMountsMade(st: State, env: Env, src: BootSources, kf: Decoder)
    requires ResolveConf(src, kf).Ok? && ResolveConf(src, kf).value.driver == UmlDriver
    requires PhaseOne(st, env, src, kf).out.Pass?
    ensures PhaseOne(st, env, src, kf).st.mounts
         == st.mounts
            + (if ResolveConf(src, kf).value.hostLab
               then [Mount(Mounts.HostLabDir, Mounts.HostLabDir, Mounts.HostFs)] else [])
            + [Mount(Mounts.RunUml, Mounts.RunUmlGuest, Mounts.HostFs)]
  {
    var conf := ResolveConf(src, kf).value;
    var stages := Stages(conf);
    var tail := [Interfaces, Hosts, Files];
    assert stages == [UmlMounts, RenameLinks] + tail;
    SequenceAppend(st, Stepper(env, conf), [UmlMounts, RenameLinks], tail);
    var s1 := Mounts.UmlSetup(st, env, conf.hostLab);
    assert [UmlMounts, RenameLinks][1..] == [RenameLinks];
    assert [RenameLinks][1..] == [];
    var s2 := Network.RenameVecs(s1.st, env);
    assert Run(st, env, conf, [UmlMounts, RenameLinks]) == (if s1.out.Fail? then s1 else s2);
    RunKeepsMountsAndNames(s2.st, env, conf, tail);
  }

  /** The stages that never change the filesystem's existing paths or remove the marker. */
  lemma {:induction false} RunKeepsPaths(st: State, env: Env, conf: VConf, stages: seq<Stage>, p: string)
    requires p in st.fs
    ensures p in Run(st, env, conf, stages).st.fs
    decreases |stages|
  {
    if stages != [] {
      var s := RunStage(st, env, conf, stages[0]);
      assert Stepper(env, conf)(st, stages[0]) == s;
      if stages[0] == Files {
        var c := Injection.CopyTree(st, env, Injection.SharedDir);
        assert p in c.st.fs;
      }
      if s.out.Pass? {
        RunKeepsPaths(s.st, env, conf, stages[1..], p);
      }
    }
  }

  /** A run that passes through the host stage leaves the marker in place. */
  lemma {:induction false} RunThroughHostsMarks(st: State, env: Env, conf: VConf, stages: seq<Stage>)
    requires Hosts in stages && Run(st, env, conf, stages).out.Pass?
    ensures Identity.Marker in Run(st, env, conf, stages).st.fs
    decreases |stages|
  {
    var s := RunStage(st, env, conf, stages[0]);
    assert Stepper(env, conf)(st, stages[0]) == s;
    if stages[0] == Hosts {
      RunKeepsPaths(s.st, env, conf, stages[1..], Identity.Marker);
    } else {
      assert Hosts in stages[1..];
      RunThroughHostsMarks(s.st, env, conf, stages[1..]);
    }
  }

  /** A successful phase one had a valid configuration and leaves the marker in place. */
  lemma PhaseOneConfigures(st: State, env: Env, src: BootSources, kf: Decoder)
    requires PhaseOne(st, env, src, kf).out.Pass?
    ensures ResolveConf(src, kf).Ok?
    ensures Identity.Marker in PhaseOne(st, env, src, kf).st.fs
  {
    var conf := ResolveConf(src, kf).value;
    var stages := Stages(conf);
    assert stages[|stages| - 2] == Hosts;
    RunThroughHostsMarks(st, env, conf, stages);
  }
}

=== FILE: config.dfy ===
/**
 * Configuration resolution (pkg/startup/phase1.go, lines 22-112).
 *
 * The kernel command line and the environment of process 1 are both turned
 * into a flat option map by a left-to-right scan that writes one key per
 * recognised token; a namespaced token whose remainder does not split into
 * exactly two parts on `=` stops the scan with an error.  Decoding the map
 * into a `VConf` is done by a third-party library and is kept abstract as a
 * `Decoder`.
 */
module Config {
  import opened Results
  import opened Strings

  /** A value in the option map: the bare `quiet` flag, or the text after `=`. */
  datatype OptValue = Flag(on: bool) | Text(text: string)

  type Options = map<string, OptValue>

  /** The configuration snapshot (`VConf`). */
  datatype VConf = VConf(
    quiet: bool,
    driver: string,
    hostName: string,
    hostLab: bool,
    defaultRoute: string,
    interfaces: map<string, string>,
    volumes: map<string, string>)

  /** Go's zero value of `VConf`. */
  const ZeroConf := VConf(false, "", "", false, "", map[], map[])

  /**
   * The koanf library, left abstract: `load` is `k.Load` of the flat map and
   * `unmarshal` is `k.Unmarshal` into a preset configuration, which yields the
   * (possibly partial) configuration together with an optional error.
   */
  datatype Decoder = Decoder(
    load: Options -> Option<Error>,
    unmarshal: (Options, VConf) -> (VConf, Option<Error>))

  /**
   * What the resolver reads from the operating system: the contents of
   * /proc/cmdline, of /proc/1/environ, and the result of `os.Hostname()`.
   */
  datatype BootSources = BootSources(
    cmdline: Result<string>,
    environ: Result<string>,
    osHostname: Result<string>)

  const CmdlinePrefix := "kstart:"
  const EnvPrefix := "kstart-"
  const UmlDriver := "UML"
  const PodmanDriver := "podman"

  /** The write a single token makes to the option map, if any. */
  type Assignment = Option<(string, OptValue)>

  function Put(m: Options, a: Assignment): Options {
    if a.Some? then m[a.value.0 := a.value.1] else m
  }

  predicate Sets(a: Assignment, k: string) {
    a.Some? && a.value.0 == k
  }

  /** The scan: apply `step` to each entry in turn, stopping at the first error. */
  function Fold(step: (Options, string) -> Result<Options>, xs: seq<string>): (r: Result<Options>)
    // the empty scan succeeds with no options, so only an entry can fail
    ensures xs == [] ==> r == Ok(map[])
    ensures r.Err? ==> xs != []
    decreases |xs|
  {
    if xs == [] then Ok(map[])
    else
      match Fold(step, xs[..|xs| - 1])
      case Err(e) => Err(e)
      case Ok(m) => step(m, xs[|xs| - 1])
  }

  /**
   * A scan step of the shape both parsers have: an entry is either rejected
   * with an error that depends on it alone, or makes at most one write.
   */
  ghost predicate Shaped(
    step: (Options, string) -> Result<Options>,
    bad: string -> bool,
    err: string -> Error,
    assign: string -> Assignment)
  {
    forall m, x :: step(m, x) == if bad(x) then Err(err(x)) else Ok(Put(m, assign(x)))
  }

  lemma {:induction false} FoldErrPersists(step: (Options, string) -> Result<Options>, xs: seq<string>, n: nat)
    requires n <= |xs|
    requires Fold(step, xs[..n]).Err?
    ensures Fold(step, xs) == Fold(step, xs[..n])
    decreases |xs| - n
  {
    if n < |xs| {
      var ys := xs[..n + 1];
      assert ys[..n] == xs[..n];
      FoldErrPersists(step, xs, n + 1);
    } else {
      assert xs[..n] == xs;
    }
  }

  /** A scan fails exactly when some entry is bad, and reports the first bad one. */
  lemma {:induction false} FoldRejects(
    step: (Options, string) -> Result<Options>,
    bad: string -> bool,
    err: string -> Error,
    assign: string -> Assignment,
    xs: seq<string>)
    requires Shaped(step, bad, err, assign)
    ensures Fold(step, xs).Err? <==> exists j :: 0 <= j < |xs| && bad(xs[j])
    ensures Fold(step, xs).Err? ==>
      exists j :: 0 <= j < |xs| && bad(xs[j]) && (forall i :: 0 <= i < j ==> !bad(xs[i]))
        && Fold(step, xs) == Err(err(xs[j]))
    decreases |xs|
  {
    if xs != [] {
      var n := |xs| - 1;
      var init := xs[..n];
      FoldRejects(step, bad, err, assign, init);
      assert forall j :: 0 <= j < n ==> init[j] == xs[j];
      match Fold(step, init)
      case Err(e) =>
        var j :| 0 <= j < |init| && bad(init[j]) && (forall i :: 0 <= i < j ==> !bad(init[i]))
          && Fold(step, init) == Err(err(init[j]));
        assert bad(xs[j]);
      case Ok(m) =>
        assert forall j :: 0 <= j < n ==> !bad(xs[j]);
        if bad(xs[n]) {
          assert Fold(step, xs) == Err(err(xs[n]));
        }
    }
  }

  /**
   * After a successful scan, a key is present exactly when some entry writes
   * it, and it holds the value written by the last entry that writes it.
   */
  lemma {:induction false} FoldLastWins(
    step: (Options, string) -> Result<Options>,
    bad: string -> bool,
    err: string -> Error,
    assign: string -> Assignment,
    xs: seq<string>,
    m: Options)
    requires Shaped(step, bad, err, assign)
    requires Fold(step, xs) == Ok(m)
    ensures forall k :: k in m <==> exists j :: 0 <= j < |xs| && Sets(assign(xs[j]), k)
    ensures forall k, j ::
              0 <= j < |xs| && Sets(assign(xs[j]), k) && (forall i :: j < i < |xs| ==> !Sets(assign(xs[i]), k))
              ==> k in m && m[k] == assign(xs[j]).value.1
    decreases |xs|
  {
    if xs != [] {
      var n := |xs| - 1;
      var init := xs[..n];
      assert forall j :: 0 <= j < n ==> init[j] == xs[j];
      var m0 := Fold(step, init).value;
      FoldLastWins(step, bad, err, assign, init, m0);
      var a := assign(xs[n]);
      assert m == Put(m0, a);
      forall k
        ensures k in m <==> exists j :: 0 <= j < |xs| && Sets(assign(xs[j]), k)
      {
        if k in m && !Sets(a, k) {
          assert k in m0;
          var j :| 0 <= j < |init| && Sets(assign(init[j]), k);
          assert Sets(assign(xs[j]), k);
        }
      }
      forall k, j | 0 <= j < |xs| && Sets(assign(xs[j]), k)
          && (forall i :: j < i < |xs| ==> !Sets(assign(xs[i]), k))
        ensures k in m && m[k] == assign(xs[j]).value.1
      {
        if j < n {
          assert !Sets(a, k);
          assert Sets(assign(init[j]), k);
          assert forall i :: j < i < |init| ==> !Sets(assign(init[i]), k);
        }
      }
    }
  }

  // ---------------------------------------------------------------------
  // The kernel command line (parseCmdline, lines 32-65)

  /** One iteration of the token loop of parseCmdline. */
  function CmdlineStep(opts: Options, o: string): (r: Result<Options>)
    // rejected exactly when malformed, with an error naming the remainder
    ensures r.Err? <==> MalformedToken(o)
    ensures r.Err? ==> r.error == CmdlineError(o)
    // otherwise at most the token's own write is made
    ensures r.Ok? ==> r.value == Put(opts, CmdlineAssign(o))
  {
    assert HasPrefix(o, CmdlinePrefix) ==> o[0] == 'k';
    if o == "quiet" then Ok(opts["quiet" := Flag(true)])
    else
      var named := if HasPrefix(o, "name=") && |o| > 5 then opts["name" := Text(o[5..])] else opts;
      if !HasPrefix(o, CmdlinePrefix) then Ok(named)
      else
        var kv := Split(o[7..], '=');
        if |kv| != 2 then Err(BadOption(o[7..])) else Ok(named[kv[0] := Text(kv[1])])
  }

  /** The option map of a tokenised command line. */
  function CmdlineOptions(tokens: seq<string>): Result<Options> {
    Fold(CmdlineStep, tokens)
  }

  /** A `kstart:` token whose remainder does not contain exactly one `=`. */
  predicate MalformedToken(o: string) {
    HasPrefix(o, CmdlinePrefix) && Count(o[7..], '=') != 1
  }

  function CmdlineError(o: string): Error {
    BadOption(if |o| >= 7 then o[7..] else o)
  }

  /** The write a command-line token makes: `quiet`, `name=<v>` with v non-empty, or `kstart:<k>=<v>`. */
  function CmdlineAssign(o: string): Assignment {
    if o == "quiet" then Some(("quiet", Flag(true)))
    else if HasPrefix(o, "name=") && |o| > 5 then Some(("name", Text(o[5..])))
    else if HasPrefix(o, CmdlinePrefix) && |Split(o[7..], '=')| == 2 then
      var kv := Split(o[7..], '='); Some((kv[0], Text(kv[1])))
    else None
  }

  lemma CmdlineStepShaped()
    ensures Shaped(CmdlineStep, MalformedToken, CmdlineError, CmdlineAssign)
  {
    forall m, o
      ensures CmdlineStep(m, o)
        == if MalformedToken(o) then Err(CmdlineError(o)) else Ok(Put(m, CmdlineAssign(o)))
    {
      if HasPrefix(o, CmdlinePrefix) {
        SplitInTwo(o[7..], '=');
        assert o[0] == 'k';
      }
    }
  }

  /**
   * The command line is rejected exactly when it holds a `kstart:` token whose
   * remainder has zero or several `=` (the bare `kstart:` included), and the
   * error names the remainder of the first such token.
   */
  lemma CmdlineRejectsMalformed(tokens: seq<string>)
    ensures CmdlineOptions(tokens).Err? <==> exists j :: 0 <= j < |tokens| && MalformedToken(tokens[j])
    ensures CmdlineOptions(tokens).Err? ==>
      exists j :: 0 <= j < |tokens| && MalformedToken(tokens[j])
        && (forall i :: 0 <= i < j ==> !MalformedToken(tokens[i]))
        && CmdlineOptions(tokens) == Err(BadOption(tokens[j][7..]))
  {
    CmdlineStepShaped();
    FoldRejects(CmdlineStep, MalformedToken, CmdlineError, CmdlineAssign, tokens);
  }

  /**
   * Last writer wins: every key of the option map was written by some token,
   * and holds what the last token writing it wrote (so a later `kstart:name=`
   * overrides an earlier `name=` and vice versa).
   */
  lemma CmdlineLastWins(tokens: seq<string>, m: Options)
    requires CmdlineOptions(tokens) == Ok(m)
    ensures forall k :: k in m <==> exists j :: 0 <= j < |tokens| && Sets(CmdlineAssign(tokens[j]), k)
    ensures forall k, j ::
              0 <= j < |tokens| && Sets(CmdlineAssign(tokens[j]), k) && (forall i :: j < i < |tokens| ==> !Sets(CmdlineAssign(tokens[i]), k))
              ==> k in m && m[k] == CmdlineAssign(tokens[j]).value.1
  {
    CmdlineStepShaped();
    FoldLastWins(CmdlineStep, MalformedToken, CmdlineError, CmdlineAssign, tokens, m);
  }

  /** `parseCmdline` as a function of what it reads. */
  function CmdlineConf(src: BootSources, kf: Decoder): Result<VConf> {
    match src.cmdline
    case Err(e) => Err(e)
    case Ok(text) =>
      match CmdlineOptions(Fields(text))
      case Err(e) => Err(e)
      case Ok(opts) =>
        match kf.load(opts)
        case Some(e) => Err(e)
        case None =>
          var (conf, uerr) := kf.unmarshal(opts, ZeroConf);
          if uerr.Some? then Err(uerr.value) else Ok(conf)
  }

  method ParseCmdline(src: BootSources, kf: Decoder) returns (r: Result<VConf>)
    ensures r == CmdlineConf(src, kf)
  {
    if src.cmdline.Err? {
      return Err(src.cmdline.error);
    }
    var cl := Fields(src.cmdline.value);
    var opts: Options := map[];
    for i := 0 to |cl|
      invariant CmdlineOptions(cl[..i]) == Ok(opts)
    {
      var o := cl[i];
      assert cl[..i + 1][..i] == cl[..i];
      if o == "quiet" {
        opts := opts["quiet" := Flag(true)];
        continue;
      }
      if HasPrefix(o, "name=") && |o| > 5 {
        opts := opts["name" := Text(o[5..])];
      }
      if !HasPrefix(o, CmdlinePrefix) {
        continue;
      }
      var rest := o[7..];
      var kv := Split(rest, '=');
      if |kv| != 2 {
        FoldErrPersists(CmdlineStep, cl, i + 1);
        return Err(BadOption(rest));
      }
      opts := opts[kv[0] := Text(kv[1])];
    }
    assert cl[..|cl|] == cl;
    var loadErr := kf.load(opts);
    if loadErr.Some? {
      return Err(loadErr.value);
    }
    var (conf, uerr) := kf.unmarshal(opts, ZeroConf);
    if uerr.Some? {
      return Err(uerr.value);
    }
    return Ok(conf);
  }

  // ---------------------------------------------------------------------
  // The environment of process 1 (loadEnv, lines 67-100)

  /** One iteration of the entry loop of loadEnv. */
  function EnvStep(opts: Options, v: string): (r: Result<Options>)
    // rejected exactly when malformed, with an error naming the whole entry
    ensures r.Err? <==> MalformedEntry(v)
    ensures r.Err? ==> r.error == EnvError(v)
    // otherwise at most the entry's own write is made
    ensures r.Ok? ==> r.value == Put(opts, EnvAssign(v))
  {
    if !HasPrefix(v, EnvPrefix) || |v| < 8 then Ok(opts)
    else
      var kv := Split(v[7..], '=');
      if |kv| != 2 then Err(BadOption(v)) else Ok(opts[kv[0] := Text(kv[1])])
  }

  function EnvOptions(entries: seq<string>): Result<Options> {
    Fold(EnvStep, entries)
  }

  /** A `kstart-` entry longer than the prefix whose remainder does not contain exactly one `=`. */
  predicate MalformedEntry(v: string) {
    HasPrefix(v, EnvPrefix) && |v| >= 8 && Count(v[7..], '=') != 1
  }

  function EnvError(v: string): Error {
    BadOption(v)
  }

  function EnvAssign(v: string): Assignment {
    if HasPrefix(v, EnvPrefix) && |v| >= 8 && |Split(v[7..], '=')| == 2 then
      var kv := Split(v[7..], '='); Some((kv[0], Text(kv[1])))
    else None
  }

  lemma EnvStepShaped()
    ensures Shaped(EnvStep, MalformedEntry, EnvError, EnvAssign)
  {
    forall m, v
      ensures EnvStep(m, v)
        == if MalformedEntry(v) then Err(EnvError(v)) else Ok(Put(m, EnvAssign(v)))
    {
      if HasPrefix(v, EnvPrefix) && |v| >= 8 {
        SplitInTwo(v[7..], '=');
      }
    }
  }

  /**
   * The environment is rejected exactly when it holds a malformed `kstart-`
   * entry; the error names the whole first such entry.  Entries without the
   * prefix, and the bare prefix itself, are skipped.
   */
  lemma EnvRejectsMalformed(entries: seq<string>)
    ensures EnvOptions(entries).Err? <==> exists j :: 0 <= j < |entries| && MalformedEntry(entries[j])
    ensures EnvOptions(entries).Err? ==>
      exists j :: 0 <= j < |entries| && MalformedEntry(entries[j])
        && (forall i :: 0 <= i < j ==> !MalformedEntry(entries[i]))
        && EnvOptions(entries) == Err(BadOption(entries[j]))
  {
    EnvStepShaped();
    FoldRejects(EnvStep, MalformedEntry, EnvError, EnvAssign, entries);
  }

  lemma EnvLastWins(entries: seq<string>, m: Options)
    requires EnvOptions(entries) == Ok(m)
    ensures forall k :: k in m <==> exists j :: 0 <= j < |entries| && Sets(EnvAssign(entries[j]), k)
    ensures forall k, j ::
              0 <= j < |entries| && Sets(EnvAssign(entries[j]), k) && (forall i :: j < i < |entries| ==> !Sets(EnvAssign(entries[i]), k))
              ==> k in m && m[k] == EnvAssign(entries[j]).value.1
  {
    EnvStepShaped();
    FoldLastWins(EnvStep, MalformedEntry, EnvError, EnvAssign, entries, m);
  }

  /**
   * The two scans disagree on the bare prefix: on the command line it is a
   * format error, in the environment it is skipped.
   */
  lemma BarePrefixAsymmetry(before: seq<string>, after: seq<string>)
    requires forall i :: 0 <= i < |before| ==> !MalformedToken(before[i]) && !MalformedEntry(before[i])
    ensures CmdlineOptions(before + [CmdlinePrefix] + after) == Err(BadOption(""))
    ensures EnvOptions(before + [EnvPrefix] + after) == EnvOptions(before + after)
  {
    var cl := before + [CmdlinePrefix] + after;
    assert MalformedToken(cl[|before|]);
    CmdlineRejectsMalformed(cl);
    assert forall i :: 0 <= i < |before| ==> cl[i] == before[i];
    var j :| 0 <= j < |cl| && MalformedToken(cl[j])
      && (forall i :: 0 <= i < j ==> !MalformedToken(cl[i]))
      && CmdlineOptions(cl) == Err(BadOption(cl[j][7..]));
    assert j == |before|;
    EnvSkipped(before, EnvPrefix, after);
  }

  /** Removing an entry the environment scan skips does not change its result. */
  lemma {:induction false} EnvSkipped(before: seq<string>, v: string, after: seq<string>)
    requires !HasPrefix(v, EnvPrefix) || |v| < 8
    ensures EnvOptions(before + [v] + after) == EnvOptions(before + after)
    decreases |after|
  {
    var xs := before + [v] + after;
    var ys := before + after;
    if after == [] {
      assert xs[..|xs| - 1] == before;
      assert ys == before;
      if Fold(EnvStep, before).Ok? {
        assert EnvStep(Fold(EnvStep, before).value, v) == Fold(EnvStep, before);
      }
    } else {
      var n := |after| - 1;
      EnvSkipped(before, v, after[..n]);
      assert xs[..|xs| - 1] == before + [v] + after[..n];
      assert ys[..|ys| - 1] == before + after[..n];
      assert xs[|xs| - 1] == ys[|ys| - 1];
    }
  }

  /** `loadEnv` as a function of what it reads. */
  function EnvConf(src: BootSources, kf: Decoder): (r: Result<VConf>)
    ensures r.Ok? ==> r.value.driver == UmlDriver || r.value.driver == PodmanDriver
  {
    match src.environ
    case Err(e) => Err(e)
    case Ok(text) =>
      match EnvOptions(Split(text, '\0'))
      case Err(e) => Err(e)
      case Ok(opts) =>
        match src.osHostname
        case Err(e) => Err(e)
        case Ok(h) =>
          match kf.load(opts)
          case Some(e) => Err(e)
          case None =>
            var (conf, uerr) := kf.unmarshal(opts, ZeroConf.(hostName := h));
            if conf.driver != UmlDriver && conf.driver != PodmanDriver then Err(UnsupportedDriver(conf.driver))
            else if uerr.Some? then Err(uerr.value)
            else Ok(conf)
  }

  method LoadEnv(src: BootSources, kf: Decoder) returns (r: Result<VConf>)
    ensures r == EnvConf(src, kf)
  {
    if src.environ.Err? {
      return Err(src.environ.error);
    }
    var envVars := Split(src.environ.value, '\0');
    var opts: Options := map[];
    for i := 0 to |envVars|
      invariant EnvOptions(envVars[..i]) == Ok(opts)
    {
      var v := envVars[i];
      assert envVars[..i + 1][..i] == envVars[..i];
      if !HasPrefix(v, EnvPrefix) || |v| < 8 {
        continue;
      }
      var kv := Split(v[7..], '=');
      if |kv| != 2 {
        FoldErrPersists(EnvStep, envVars, i + 1);
        return Err(BadOption(v));
      }
      opts := opts[kv[0] := Text(kv[1])];
    }
    assert envVars[..|envVars|] == envVars;
    if src.osHostname.Err? {
      return Err(src.osHostname.error);
    }
    var conf := ZeroConf.(hostName := src.osHostname.value);
    var loadErr := kf.load(opts);
    if loadErr.Some? {
      return Err(loadErr.value);
    }
    var (decoded, uerr) := kf.unmarshal(opts, conf);
    if decoded.driver != UmlDriver && decoded.driver != PodmanDriver {
      return Err(UnsupportedDriver(decoded.driver));
    }
    if uerr.Some? {
      return Err(uerr.value);
    }
    return Ok(decoded);
  }

  // ---------------------------------------------------------------------
  // Driver selection (LoadConf, lines 102-112)

  /**
   * `LoadConf`: a command-line error is returned as it is; a command line
   * naming the UML driver is final; otherwise the environment decides.
   */
  function ResolveConf(src: BootSources, kf: Decoder): (r: Result<VConf>)
    ensures r.Ok? ==> r.value.driver == UmlDriver || r.value.driver == PodmanDriver
    ensures CmdlineConf(src, kf).Err? ==> r == CmdlineConf(src, kf)
  {
    match CmdlineConf(src, kf)
    case Err(e) => Err(e)
    case Ok(c) => if c.driver == UmlDriver then Ok(c) else EnvConf(src, kf)
  }

  /**
   * When the command line names the UML driver, the environment and the OS
   * host name are never consulted: any other values give the same result.
   */
  lemma UmlCmdlineIgnoresEnvironment(src: BootSources, environ: Result<string>, osHostname: Result<string>, kf: Decoder)
    requires CmdlineConf(src, kf).Ok? && CmdlineConf(src, kf).value.driver == UmlDriver
    ensures ResolveConf(src.(environ := environ, osHostname := osHostname), kf) == CmdlineConf(src, kf)
  {
    assert CmdlineConf(src.(environ := environ, osHostname := osHostname), kf) == CmdlineConf(src, kf);
  }

  /** Any other command-line driver hands the decision to the environment. */
  lemma NonUmlCmdlineUsesEnvironment(src: BootSources, kf: Decoder)
    requires CmdlineConf(src, kf).Ok? && CmdlineConf(src, kf).value.driver != UmlDriver
    ensures ResolveConf(src, kf) == EnvConf(src, kf)
  {
  }

  method LoadConf(src: BootSources, kf: Decoder) returns (r: Result<VConf>)
    ensures r == ResolveConf(src, kf)
  {
    var cmdline := ParseCmdline(src, kf);
    if cmdline.Err? {
      return cmdline;
    }
    if cmdline.value.driver == UmlDriver {
      return cmdline;
    }
    r := LoadEnv(src, kf);
  }
}

=== FILE: identity.dfy ===
/**
 * Host identity (pkg/startup/phase1.go, lines 114-148): the host name file,
 * the kernel host name and the loopback line of /etc/hosts are set once,
 * guarded by a marker file that is written as the very last step.
 */
module Identity {
  import opened Results
  import opened Strings
  import opened Os

  const HostnamePath := "/etc/hostname"
  const HostsPath := "/etc/hosts"
  const Marker := "/etc/vhostconfigured"

  /** The line prepended to /etc/hosts. */
  function HostsLine(name: string): (line: string)
    ensures HasPrefix(line, "127.0.0.1 ") && line[|line| - 1] == '\n'
    // a host name without white space reads back as the second field of the line
    ensures IsWord(name) ==> Fields(line) == ["127.0.0.1", name]
  {
    var line := "127.0.0.1 " + name + "\n";
    assert IsWord(name) ==> Fields(line) == ["127.0.0.1", name] by {
      if IsWord(name) {
        assert line == "127.0.0.1" + [' '] + (name + "\n");
        FieldsOfWordSpace("127.0.0.1", name + "\n");
        FieldsIgnoresTrailingSpaces(name, "\n");
        FieldsOfWord(name);
      }
    }
    line
  }

  /** `hostname`: write /etc/hostname, then set the kernel host name. */
  function SetHostname(st: State, env: Env, name: string): (r: Step)
    ensures r.st.links == st.links && r.st.routes == st.routes && r.st.mounts == st.mounts
    ensures r.out.Pass? <==> && !env.Fails(OsWriteFile(HostnamePath))
                             && !(HostnamePath in st.fs && st.fs[HostnamePath].Dir?)
                             && !env.Fails(SysSethostname(name))
    ensures r.out.Pass? ==> r.st == st.(fs := st.fs[HostnamePath := File(name)], hostname := name)
  {
    var w := WriteFile(st, env, HostnamePath, name);
    if w.out.Fail? then w
    else if env.Fails(SysSethostname(name)) then Step(Fail(SethostnameFailed(name)), w.st)
    else Step(Pass, w.st.(hostname := name))
  }

  /** `hostsFile`: prepend the loopback line to the current contents of /etc/hosts. */
  function PrependHosts(st: State, env: Env, name: string): (r: Step)
    ensures r.out.Pass? <==> ReadFile(st, env, HostsPath).Ok? && !env.Fails(OsWriteFile(HostsPath))
    ensures r.out.Pass? ==>
              r.st == st.(fs := st.fs[HostsPath := File(HostsLine(name) + st.fs[HostsPath].data)])
    ensures r.out.Fail? ==> r.st == st
  {
    match ReadFile(st, env, HostsPath)
    case Err(e) => Step(Fail(e), st)
    case Ok(orig) => WriteFile(st, env, HostsPath, HostsLine(name) + orig)
  }

  /** `setupHosts`. */
  function SetupHosts(st: State, env: Env, name: string): (r: Step)
    // only the filesystem and the kernel host name are touched
    ensures r.st.links == st.links && r.st.routes == st.routes && r.st.mounts == st.mounts
    // an existing marker makes the call a no-op; a failing stat is returned and changes nothing
    ensures Stat(st, env, Marker) == Present ==> r == Step(Pass, st)
    ensures Stat(st, env, Marker) == ProbeFailed ==> r == Step(Fail(StatFailed(Marker)), st)
    // starting unconfigured, the call succeeds exactly when the host name, the
    // hosts file and the marker are all written; the first failure is returned
    ensures Stat(st, env, Marker) == Absent ==>
              (r.out.Pass? <==> && SetHostname(st, env, name).out.Pass?
                                && PrependHosts(SetHostname(st, env, name).st, env, name).out.Pass?
                                && !env.Fails(OsWriteFile(Marker)))
    ensures Stat(st, env, Marker) == Absent && SetHostname(st, env, name).out.Fail? ==>
              r == SetHostname(st, env, name)
    ensures Stat(st, env, Marker) == Absent && SetHostname(st, env, name).out.Pass?
            && PrependHosts(SetHostname(st, env, name).st, env, name).out.Fail? ==>
              r == PrependHosts(SetHostname(st, env, name).st, env, name)
    // the marker write comes last and undoes nothing: if it fails, the host name
    // and the prepended hosts line stay, so the next boot prepends the line again
    ensures Stat(st, env, Marker) == Absent && SetHostname(st, env, name).out.Pass?
            && PrependHosts(SetHostname(st, env, name).st, env, name).out.Pass? ==>
              r == WriteFile(PrependHosts(SetHostname(st, env, name).st, env, name).st, env, Marker, [])
    // starting unconfigured, the marker is present afterwards exactly when the call succeeded
    ensures Marker !in st.fs ==> (Marker in r.st.fs <==> r.out.Pass?)
    // and success means all three effects happened, on the original hosts contents
    ensures Marker !in st.fs && r.out.Pass? ==>
              && HostsPath in st.fs && st.fs[HostsPath].File?
              && r.st.hostname == name
              && r.st.fs == st.fs[HostnamePath := File(name)]
                                 [HostsPath := File(HostsLine(name) + st.fs[HostsPath].data)]
                                 [Marker := File([])]
  {
    match Stat(st, env, Marker)
    case ProbeFailed => Step(Fail(StatFailed(Marker)), st)
    case Present => Step(Pass, st)
    case Absent =>
      var h := SetHostname(st, env, name);
      if h.out.Fail? then h
      else
        var p := PrependHosts(h.st, env, name);
        if p.out.Fail? then p
        else WriteFile(p.st, env, Marker, [])
  }

  /**
   * Idempotence: once a call has succeeded, a later call on the state it
   * left (in a later boot, with any environment whose stat of the marker
   * works, and any name) succeeds and changes nothing, so the hosts line is
   * prepended once.
   */
  lemma SetupHostsIdempotent(st: State, env: Env, name: string, env2: Env, name2: string)
    requires SetupHosts(st, env, name).out.Pass?
    requires !env2.Fails(OsStat(Marker))
    ensures var s1 := SetupHosts(st, env, name).st;
            SetupHosts(s1, env2, name2) == Step(Pass, s1)
  {
  }

  /** Two successful calls in a row leave the state one call leaves. */
  lemma SetupHostsTwiceIsOnce(st: State, env: Env, name: string, name2: string)
    requires SetupHosts(st, env, name).out.Pass?
    ensures SetupHosts(SetupHosts(st, env, name).st, env, name2) == SetupHosts(st, env, name)
  {
  }
}

=== FILE: injection.dfy ===
/**
 * File injection (pkg/startup/phase1.go, lines 150-178): the shared host-lab
 * tree and then the machine's own tree are copied onto the root, so a file
 * of the machine tree replaces a shared file at the same path.
 */
module Injection {
  import opened Results
  import opened Strings
  import opened Os

  const SharedDir := "/hostlab/shared"

  /**
   * `/hostlab/<hostname>`; with an empty host name the trailing slash makes
   * it /hostlab itself.
   */
  function MachineDir(hostname: string): (dir: string)
    ensures hostname == [] ==> dir == "/hostlab"
    ensures hostname != [] ==> HasPrefix(dir, "/hostlab/") && dir[9..] == hostname
  {
    if hostname == [] then "/hostlab" else "/hostlab/" + hostname
  }

  /** `q` is a path below the root that the tree at `root` provides. */
  predicate Provides(fs: Fs, root: string, q: string) {
    |q| > 1 && q[0] == '/' && root + q in fs
  }

  /** A path strictly below `root`. */
  predicate Below(p: string, root: string) {
    HasPrefix(p, root + "/") && |p| > |root| + 1
  }

  /** The path `p` below `root` is copied to. */
  function Rebase(p: string, root: string): string
    requires Below(p, root)
  {
    "/" + p[|root| + 1..]
  }

  /** The paths the tree at `root` is copied to. */
  function Targets(fs: Fs, root: string): set<string> {
    set p | p in fs && Below(p, root) :: Rebase(p, root)
  }

  lemma {:induction false} TargetsAreProvided(fs: Fs, root: string)
    ensures forall q :: q in Targets(fs, root) <==> Provides(fs, root, q)
  {
    forall q | q in Targets(fs, root) ensures Provides(fs, root, q) {
      var p :| p in fs && Below(p, root) && Rebase(p, root) == q;
      assert p == p[..|root| + 1] + p[|root| + 1..];
      assert root + q == p;
    }
    forall q | Provides(fs, root, q) ensures q in Targets(fs, root) {
      var p := root + q;
      assert p[..|root| + 1] == root + "/";
      assert p[|root| + 1..] == q[1..];
      assert q == "/" + q[1..];
      assert Below(p, root) && Rebase(p, root) == q;
    }
  }

  /** The entries of the tree at `root`, moved to the root of the filesystem. */
  function Copied(fs: Fs, root: string): (m: Fs)
    ensures forall q :: q in m <==> Provides(fs, root, q)
    ensures forall q :: q in m ==> root + q in fs && m[q] == fs[root + q]
  {
    TargetsAreProvided(fs, root);
    map q | q in Targets(fs, root) :: fs[root + q]
  }

  /** `cp.Copy(root, "/")`: a right-biased union of the filesystem with the moved tree. */
  function Overlay(fs: Fs, root: string): (r: Fs)
    ensures forall q :: q in r <==> q in fs || Provides(fs, root, q)
    ensures forall q :: Provides(fs, root, q) ==> r[q] == fs[root + q]
    ensures forall q :: q in fs && !Provides(fs, root, q) ==> r[q] == fs[q]
  {
    fs + Copied(fs, root)
  }

  /** One stat-then-copy stage of `copyInFiles`: a missing tree is skipped. */
  function CopyTree(st: State, env: Env, root: string): (r: Step)
    ensures r.st == st || r.st == st.(fs := Overlay(st.fs, root))
    ensures r.out.Pass? && root in st.fs ==> r.st.fs == Overlay(st.fs, root)
    ensures r.out.Fail? ==> r.st == st
    ensures root !in st.fs && !env.Fails(OsStat(root)) ==> r == Step(Pass, st)
    // any other stat error, and any copy error, is returned
    ensures r.out.Fail? <==> env.Fails(OsStat(root)) || (root in st.fs && env.Fails(CpCopy(root)))
    ensures env.Fails(OsStat(root)) ==> r.out == Fail(StatFailed(root))
    ensures !env.Fails(OsStat(root)) && r.out.Fail? ==> r.out == Fail(CopyFailed(root))
  {
    match Stat(st, env, root)
    case ProbeFailed => Step(Fail(StatFailed(root)), st)
    case Absent => Step(Pass, st)
    case Present =>
      if env.Fails(CpCopy(root)) then Step(Fail(CopyFailed(root)), st)
      else Step(Pass, st.(fs := Overlay(st.fs, root)))
  }

  /** `copyInFiles`. */
  function CopyInFiles(st: State, env: Env, hostname: string): (r: Step)
    ensures r.st.links == st.links && r.st.routes == st.routes
    ensures r.st.mounts == st.mounts && r.st.hostname == st.hostname
    // a failure of the shared stage stops before the machine tree is looked at
    ensures CopyTree(st, env, SharedDir).out.Fail? ==> r == CopyTree(st, env, SharedDir)
    // with no shared tree, only the machine tree is copied
    ensures SharedDir !in st.fs && !env.Fails(OsStat(SharedDir)) ==> r == CopyTree(st, env, MachineDir(hostname))
    // the call fails exactly when one of the two stages does; after the shared
    // stage, a stat or copy error of the machine tree is returned at once
    ensures r.out.Fail? <==> CopyTree(st, env, SharedDir).out.Fail?
                             || CopyTree(CopyTree(st, env, SharedDir).st, env, MachineDir(hostname)).out.Fail?
    // after the shared stage the machine stage runs on what it left; nothing is undone
    ensures CopyTree(st, env, SharedDir).out.Pass? ==>
              r == CopyTree(CopyTree(st, env, SharedDir).st, env, MachineDir(hostname))
    ensures CopyTree(st, env, SharedDir).out.Pass? && env.Fails(OsStat(MachineDir(hostname))) ==>
              r.out == Fail(StatFailed(MachineDir(hostname)))
    ensures CopyTree(st, env, SharedDir).out.Pass? && !env.Fails(OsStat(MachineDir(hostname))) && r.out.Fail? ==>
              r.out == Fail(CopyFailed(MachineDir(hostname)))
  {
    var s := CopyTree(st, env, SharedDir);
    if s.out.Fail? then s else CopyTree(s.st, env, MachineDir(hostname))
  }

  /** A file of the machine tree wins over whatever the shared stage left at its path. */
  lemma MachineTreeWins(st: State, env: Env, hostname: string, q: string)
    requires CopyInFiles(st, env, hostname).out.Pass?
    requires var s1 := CopyTree(st, env, SharedDir).st;
             MachineDir(hostname) in s1.fs && Provides(s1.fs, MachineDir(hostname), q)
    ensures CopyInFiles(st, env, hostname).st.fs[q]
         == CopyTree(st, env, SharedDir).st.fs[MachineDir(hostname) + q]
  {
  }

  /**
   * A file of the shared tree reaches the root unless the machine tree
   * provides the same path.
   */
  lemma SharedTreeFillsIn(st: State, env: Env, hostname: string, q: string)
    requires CopyInFiles(st, env, hostname).out.Pass?
    requires SharedDir in st.fs && Provides(st.fs, SharedDir, q)
    requires !Provides(CopyTree(st, env, SharedDir).st.fs, MachineDir(hostname), q)
    ensures CopyInFiles(st, env, hostname).st.fs[q] == st.fs[SharedDir + q]
  {
  }
}

=== FILE: mounts.dfy ===
/**
 * The UML host mounts (pkg/startup/phase1.go, lines 17-20 and 180-194):
 * the lab directory, when asked for, and always the UML runtime directory,
 * each mounted as `hostfs` onto a directory created for it.
 */
module Mounts {
  import opened Results
  import opened Os

  const HostLabDir := "/hostlab"
  const RunUml := "/run/uml"
  const RunUmlGuest := "/run/uml-guest"
  const HostFs := "hostfs"

  /**
   * `mountDir`: mount the host path `host` onto `guest` as `hostfs`.  The
   * kernel refuses a target that is missing or is not a directory.
   */
  function MountDir(st: State, env: Env, host: string, guest: string): (r: Step)
    ensures r.out.Pass? <==>
              guest in st.fs && st.fs[guest].Dir? && !env.Fails(SysMount(host, guest))
    ensures r.out.Fail? ==> r == Step(Fail(MountFailed(host, guest)), st)
    ensures r.out.Pass? ==> r.st == st.(mounts := st.mounts + [Mount(host, guest, HostFs)])
  {
    if guest !in st.fs || !st.fs[guest].Dir? || env.Fails(SysMount(host, guest)) then
      Step(Fail(MountFailed(host, guest)), st)
    else
      Step(Pass, st.(mounts := st.mounts + [Mount(host, guest, HostFs)]))
  }

  /**
   * `guest` can be mounted onto once `os.Mkdir` has run: it is a directory
   * already, or it is missing and can be created, and the mount succeeds.
   */
  predicate Mountable(fs: Fs, env: Env, host: string, guest: string) {
    && (if guest in fs then fs[guest].Dir? else !env.Fails(OsMkdir(guest)))
    && !env.Fails(SysMount(host, guest))
  }

  /** `umlSetup`: the optional lab mount first, then the runtime mount. */
  function UmlSetup(st: State, env: Env, hostLab: bool): (r: Step)
    ensures r.st.links == st.links && r.st.routes == st.routes && r.st.hostname == st.hostname
    // only the two mount points may be created
    ensures r.st.fs.Keys <= st.fs.Keys + {HostLabDir, RunUmlGuest}
    ensures forall p :: p in st.fs ==> p in r.st.fs && r.st.fs[p] == st.fs[p]
    // on success, exactly the requested mounts were made, in order
    ensures r.out.Pass? ==>
              r.st.mounts == st.mounts
                             + (if hostLab then [Mount(HostLabDir, HostLabDir, HostFs)] else [])
                             + [Mount(RunUml, RunUmlGuest, HostFs)]
    // a failed lab mount stops before the runtime directory is touched
    ensures hostLab && !Mountable(st.fs, env, HostLabDir, HostLabDir) ==>
              r.st.mounts == st.mounts && r.st.fs.Keys <= st.fs.Keys + {HostLabDir}
    // a missing mount point is created before its mount is tried
    ensures hostLab && HostLabDir !in st.fs && !env.Fails(OsMkdir(HostLabDir)) ==>
              HostLabDir in r.st.fs && r.st.fs[HostLabDir] == Dir
    ensures (!hostLab || Mountable(st.fs, env, HostLabDir, HostLabDir))
            && RunUmlGuest !in st.fs && !env.Fails(OsMkdir(RunUmlGuest)) ==>
              RunUmlGuest in r.st.fs && r.st.fs[RunUmlGuest] == Dir
    // a failed runtime mount keeps the lab mount already made: nothing is undone
    ensures (!hostLab || Mountable(st.fs, env, HostLabDir, HostLabDir)) && r.out.Fail? ==>
              r.st.mounts == st.mounts + (if hostLab then [Mount(HostLabDir, HostLabDir, HostFs)] else [])
    ensures r.out.Fail? ==> r.out.error.MountFailed?
    // setup succeeds exactly when each requested mount can be made; the first
    // mount that fails is the error returned
    ensures r.out.Pass? <==>
              && (hostLab ==> Mountable(st.fs, env, HostLabDir, HostLabDir))
              && Mountable(st.fs, env, RunUml, RunUmlGuest)
    ensures hostLab && !Mountable(st.fs, env, HostLabDir, HostLabDir) ==>
              r.out == Fail(MountFailed(HostLabDir, HostLabDir))
    ensures (!hostLab || Mountable(st.fs, env, HostLabDir, HostLabDir))
            && !Mountable(st.fs, env, RunUml, RunUmlGuest) ==>
              r.out == Fail(MountFailed(RunUml, RunUmlGuest))
  {
    var st1 :=
      if hostLab then MountDir(Mkdir(st, env, HostLabDir), env, HostLabDir, HostLabDir)
      else Step(Pass, st);
    if st1.out.Fail? then st1
    else MountDir(Mkdir(st1.st, env, RunUmlGuest), env, RunUml, RunUmlGuest)
  }

  /** A fresh guest gets both mounts when no call fails. */
  lemma UmlSetupSucceeds(st: State, env: Env, hostLab: bool)
    requires HostLabDir !in st.fs && RunUmlGuest !in st.fs
    requires !env.Fails(OsMkdir(HostLabDir)) && !env.Fails(OsMkdir(RunUmlGuest))
    requires !env.Fails(SysMount(HostLabDir, HostLabDir)) && !env.Fails(SysMount(RunUml, RunUmlGuest))
    ensures UmlSetup(st, env, hostLab).out.Pass?
  {
  }

  /** Without the runtime mount point in place, setup fails on the runtime mount. */
  lemma UmlSetupNeedsRuntimeDir(st: State, env: Env, hostLab: bool)
    requires env.Fails(OsMkdir(RunUmlGuest)) && RunUmlGuest !in st.fs
    ensures UmlSetup(st, env, hostLab).out.Fail?
  {
  }
}

=== FILE: network.dfy ===
/**
 * Network configuration (pkg/startup/phase1.go, lines 196-270): renaming
 * the UML virtual links, assigning interface addresses best-effort, and the
 * strictly validated default route.
 */
module Network {
  import opened Results
  import opened Strings
  import opened Os

  const DefaultDst := "0.0.0.0/0"

  // ---------------------------------------------------------------------
  // renameVecs (lines 250-270)

  /** The new name of a link: `vec<s>` with `s` non-empty becomes `eth<s>`. */
  function RenameRule(name: string): (r: Option<string>)
    ensures r.Some? <==> |name| > 3 && name[..3] == "vec"
    ensures r.Some? ==> |r.value| == |name| && r.value[..3] == "eth" && r.value[3..] == name[3..]
  {
    if HasPrefix(name, "vec") && |name| > 3 then Some("eth" + name[3..]) else None
  }

  /** The rule renames exactly the names `vec<s>` with `s` non-empty, to `eth<s>`. */
  lemma RenameRuleMeaning(s: string)
    ensures RenameRule("vec" + s) == if s == [] then None else Some("eth" + s)
    ensures RenameRule("eth" + s) == None
  {
    assert ("vec" + s)[..3] == "vec" && ("vec" + s)[3..] == s;
    assert ("eth" + s)[..3] == "eth";
  }

  /** Distinct names are never renamed to the same name. */
  lemma RenameRuleInjective(a: string, b: string)
    requires RenameRule(a).Some? && a != b
    ensures RenameRule(a) != RenameRule(b)
  {
    if RenameRule(b).Some? {
      var sa, sb := a[3..], b[3..];
      assert ("eth" + sa)[3..] == sa && ("eth" + sb)[3..] == sb;
      assert a == a[..3] + sa && b == b[..3] + sb;
    }
  }

  /** A renamed link carries an `eth` name, which the rule never renames again. */
  lemma RenamedNameIsFinal(a: string)
    requires RenameRule(a).Some?
    ensures RenameRule(RenameRule(a).value).None?
  {
    RenameRuleMeaning(a[3..]);
  }

  /**
   * One link after its loop iteration: the rename succeeds unless the new
   * name is taken or the call fails; the alias is set to the original name
   * unless that call fails, whether or not the rename succeeded.
   */
  function RenameLink(l: Link, taken: set<string>, env: Env): (r: Link)
    // only the name and the alias change, and only for a `vec` link
    ensures r == l.(name := r.name, alias := r.alias)
    ensures RenameRule(l.name).None? ==> r == l
    // the rename happens exactly when the new name is free and the call succeeds
    ensures RenameRule(l.name).Some? ==>
              (r.name == RenameRule(l.name).value <==>
                 RenameRule(l.name).value !in taken && !env.Fails(NlLinkSetName(l.index, RenameRule(l.name).value)))
    ensures RenameRule(l.name).Some? && r.name != RenameRule(l.name).value ==> r.name == l.name
    // the alias records the old name whenever its own call succeeds
    ensures RenameRule(l.name).Some? ==>
              r.alias == if env.Fails(NlLinkSetAlias(l.index, l.name)) then l.alias else l.name
  {
    match RenameRule(l.name)
    case None => l
    case Some(n) =>
      l.(name := if n in taken || env.Fails(NlLinkSetName(l.index, n)) then l.name else n,
         alias := if env.Fails(NlLinkSetAlias(l.index, l.name)) then l.alias else l.name)
  }

  /** All links after the loop; the names taken are those listed at the start. */
  function Renamed(links: seq<Link>, env: Env): (r: seq<Link>)
    ensures |r| == |links|
    ensures forall j :: 0 <= j < |r| ==>
              r[j] == links[j].(name := r[j].name, alias := r[j].alias)
    ensures forall j :: 0 <= j < |r| && RenameRule(links[j].name).None? ==> r[j] == links[j]
    ensures forall j :: 0 <= j < |r| && RenameRule(links[j].name).Some? ==>
              r[j].name in {links[j].name, RenameRule(links[j].name).value}
  {
    seq(|links|, j requires 0 <= j < |links| => RenameLink(links[j], Names(links), env))
  }

  /** A free `vec<s>` link whose calls succeed ends up as `eth<s>` with alias `vec<s>`. */
  lemma RenameVirtualLink(links: seq<Link>, env: Env, j: nat, s: string)
    requires j < |links| && links[j].name == "vec" + s && s != []
    requires "eth" + s !in Names(links)
    requires !env.Fails(NlLinkSetName(links[j].index, "eth" + s))
    requires !env.Fails(NlLinkSetAlias(links[j].index, "vec" + s))
    ensures Renamed(links, env)[j].name == "eth" + s
    ensures Renamed(links, env)[j].alias == "vec" + s
  {
    RenameRuleMeaning(s);
  }

  /** Renaming keeps link names unique. */
  lemma RenamedKeepsNamesUnique(links: seq<Link>, env: Env)
    requires UniqueNames(links)
    ensures UniqueNames(Renamed(links, env))
  {
    var r := Renamed(links, env);
    forall i, j | 0 <= i < |r| && 0 <= j < |r| && i != j
      ensures r[i].name != r[j].name
    {
      var a, b := links[i], links[j];
      assert a in links && b in links;
      if r[i].name != a.name && r[j].name != b.name {
        RenameRuleInjective(a.name, b.name);
      }
    }
  }

  /**
   * The links once the loop has handled those before position `i`: a
   * rename target is taken exactly when it was taken at the start.  Targets
   * are `eth` names, which no earlier rename frees, and no earlier rename
   * claims another link's target, so checking against the names listed at
   * the start is the same as checking against the kernel's current names.
   */
  lemma TakenAsAtStart(links: seq<Link>, cur: seq<Link>, env: Env, i: nat)
    requires UniqueNames(links) && i < |links| && RenameRule(links[i].name).Some?
    requires |cur| == |links|
    requires forall j :: 0 <= j < i ==> cur[j] == RenameLink(links[j], Names(links), env)
    requires forall j :: i <= j < |links| ==> cur[j] == links[j]
    ensures RenameRule(links[i].name).value in Names(cur) <==> RenameRule(links[i].name).value in Names(links)
  {
    var n := RenameRule(links[i].name).value;
    var r := Renamed(links, env);
    RenamedNameIsFinal(links[i].name);
    forall k | 0 <= k < |links|
      ensures cur[k].name == n <==> links[k].name == n
    {
      if k < i {
        assert cur[k] == r[k];
        if r[k].name != links[k].name {
          RenameRuleInjective(links[k].name, links[i].name);
        }
      }
    }
    if n in Names(links) {
      var l :| l in links && l.name == n;
      var k :| 0 <= k < |links| && links[k] == l;
      assert cur[k] in cur;
    }
    if n in Names(cur) {
      var l :| l in cur && l.name == n;
      var k :| 0 <= k < |cur| && cur[k] == l;
      assert links[k] in links;
    }
  }

  /** `renameVecs`: only a failure to list the links is returned. */
  function RenameVecs(st: State, env: Env): (r: Step)
    ensures r.out.Fail? <==> env.Fails(NlLinkList)
    ensures r.out.Fail? ==> r == Step(Fail(LinkListFailed), st)
    ensures r.out.Pass? ==> r.st == st.(links := Renamed(st.links, env))
  {
    if env.Fails(NlLinkList) then Step(Fail(LinkListFailed), st)
    else Step(Pass, st.(links := Renamed(st.links, env)))
  }

  // ---------------------------------------------------------------------
  // setupIfaces, address stage (lines 198-217)

  /**
   * A link gets the address listed under its name when the address is
   * non-empty, the lookup succeeds, the address parses and the add succeeds.
   */
  predicate Assignable(l: Link, ifaces: map<string, string>, env: Env) {
    && l.name in ifaces
    && ifaces[l.name] != []
    && !env.Fails(NlLinkByName(l.name))
    && env.validCIDR(ifaces[l.name])
    && !env.Fails(NlAddrAdd(l.index, ifaces[l.name]))
  }

  function AssignLink(l: Link, ifaces: map<string, string>, env: Env): (r: Link)
    ensures r == l.(addrs := r.addrs)
    ensures Assignable(l, ifaces, env) ==> r.addrs == l.addrs + {ifaces[l.name]}
    // an empty address, or one whose lookup, parse or add fails, is skipped
    ensures !Assignable(l, ifaces, env) ==> r == l
  {
    if Assignable(l, ifaces, env) then l.(addrs := l.addrs + {ifaces[l.name]}) else l
  }

  /**
   * The links after the address loop, whatever order the map is walked in:
   * each entry reaches the link `netlink.LinkByName` finds for its key.
   */
  function AssignAddrs(links: seq<Link>, ifaces: map<string, string>, env: Env): (r: seq<Link>)
    ensures |r| == |links|
    ensures forall j :: 0 <= j < |r| ==> r[j] == links[j].(addrs := r[j].addrs)
    ensures forall j :: 0 <= j < |r| ==>
              links[j].addrs <= r[j].addrs
              <= links[j].addrs + (if links[j].name in ifaces then {ifaces[links[j].name]} else {})
    // a valid entry is assigned to the link its name finds
    ensures forall j :: 0 <= j < |r| && Lookup(links, links[j].name) == Some(j) && Assignable(links[j], ifaces, env) ==>
              r[j].addrs == links[j].addrs + {ifaces[links[j].name]}
    // an empty or failing entry is skipped, and so is a link the lookup does not find
    ensures forall j :: 0 <= j < |r| && !Assignable(links[j], ifaces, env) ==> r[j] == links[j]
    ensures forall j :: 0 <= j < |r| && Lookup(links, links[j].name) != Some(j) ==> r[j] == links[j]
  {
    seq(|links|, j requires 0 <= j < |links| => AssignAt(links, ifaces, env, j))
  }

  /** The link at position `j` after the loop: only the link a key finds is touched. */
  function AssignAt(links: seq<Link>, ifaces: map<string, string>, env: Env, j: nat): (r: Link)
    requires j < |links|
    ensures r == links[j].(addrs := r.addrs)
    ensures Lookup(links, links[j].name) == Some(j) && Assignable(links[j], ifaces, env) ==>
              r.addrs == links[j].addrs + {ifaces[links[j].name]}
    ensures Lookup(links, links[j].name) != Some(j) || !Assignable(links[j], ifaces, env) ==> r == links[j]
  {
    if Lookup(links, links[j].name) == Some(j) then AssignLink(links[j], ifaces, env) else links[j]
  }

  lemma AssignAtDrop(links: seq<Link>, ifaces: map<string, string>, k: string, env: Env, j: nat)
    requires k in ifaces && j < |links|
    ensures links[j].name != k ==> AssignAt(links, ifaces - {k}, env, j) == AssignAt(links, ifaces, env, j)
    ensures links[j].name == k ==> AssignAt(links, ifaces - {k}, env, j) == links[j]
  {
    var n := links[j].name;
    assert n in ifaces - {k} <==> n in ifaces && n != k;
    if n in ifaces - {k} {
      assert (ifaces - {k})[n] == ifaces[n];
    }
  }

  /** Lookup depends on the names only. */
  lemma {:induction false} LookupByNames(a: seq<Link>, b: seq<Link>, n: string)
    requires |a| == |b| && forall j :: 0 <= j < |a| ==> a[j].name == b[j].name
    ensures Lookup(a, n) == Lookup(b, n)
    decreases |a|
  {
    if a != [] {
      LookupByNames(a[1..], b[1..], n);
    }
  }

  /** With unique names, the lookup of a link's own name finds that link. */
  lemma LookupOwnName(links: seq<Link>, j: nat)
    requires UniqueNames(links) && j < |links|
    ensures Lookup(links, links[j].name) == Some(j)
  {
  }

  /** With unique names (the kernel's guarantee), every link gets its own valid entry. */
  lemma AssignAddrsUnique(links: seq<Link>, ifaces: map<string, string>, env: Env)
    requires UniqueNames(links)
    ensures forall j :: 0 <= j < |links| ==> AssignAddrs(links, ifaces, env)[j] == AssignLink(links[j], ifaces, env)
  {
    forall j | 0 <= j < |links|
      ensures AssignAddrs(links, ifaces, env)[j] == AssignLink(links[j], ifaces, env)
    {
      LookupOwnName(links, j);
    }
  }

  /**
   * Handling one more map entry changes at most the link its key names: the
   * result does not depend on the order the entries are handled in.
   */
  lemma AssignAddrsAddsOne(links: seq<Link>, ifaces: map<string, string>, k: string, env: Env)
    requires k in ifaces
    ensures var before := AssignAddrs(links, ifaces - {k}, env);
            var after := AssignAddrs(links, ifaces, env);
            match Lookup(links, k)
            case None => after == before
            case Some(p) => before[p] == links[p] && after == before[p := AssignLink(links[p], ifaces, env)]
  {
    var before := AssignAddrs(links, ifaces - {k}, env);
    var after := AssignAddrs(links, ifaces, env);
    forall j | 0 <= j < |links|
      ensures links[j].name != k ==> before[j] == after[j]
      ensures links[j].name == k ==> before[j] == links[j]
      ensures links[j].name == k && Lookup(links, k) != Some(j) ==> after[j] == links[j]
    {
      AssignAtDrop(links, ifaces, k, env, j);
    }
    match Lookup(links, k)
    case None =>
      assert after == before;
    case Some(p) =>
      assert after == before[p := AssignLink(links[p], ifaces, env)];
  }

  // ---------------------------------------------------------------------
  // setupIfaces, default-route stage (lines 218-246)

  /** `def_route` must be `iface:gateway`: exactly one `:` and a gateway `net.ParseIP` accepts. */
  function ParseDefRoute(defRoute: string, validIP: string -> bool): (r: Result<(string, string)>)
    ensures r.Ok? ==>
              && defRoute == r.value.0 + ":" + r.value.1
              && ':' !in r.value.0 && ':' !in r.value.1
              && validIP(r.value.1)
    ensures Count(defRoute, ':') != 1 <==> r == Err(BadRouteFormat(defRoute))
    ensures Count(defRoute, ':') == 1 && !validIP(Split(defRoute, ':')[1]) ==> r == Err(BadRouteIP(defRoute))
  {
    var ia := Split(defRoute, ':');
    SplitInTwo(defRoute, ':');
    if |ia| != 2 then Err(BadRouteFormat(defRoute))
    else if !validIP(ia[1]) then Err(BadRouteIP(defRoute))
    else Ok((ia[0], ia[1]))
  }

  /** Every well-formed `iface:gateway` string is accepted, with its two halves. */
  lemma DefRouteAccepts(iface: string, gw: string, validIP: string -> bool)
    requires ':' !in iface && ':' !in gw && validIP(gw)
    ensures ParseDefRoute(iface + ":" + gw, validIP) == Ok((iface, gw))
  {
    SplitPair(iface, gw, ':');
  }

  /** A gateway containing `:` (every IPv6 literal) is rejected as a format error. */
  lemma DefRouteRejectsIPv6(iface: string, gw: string, validIP: string -> bool)
    requires ':' in gw
    ensures ParseDefRoute(iface + ":" + gw, validIP) == Err(BadRouteFormat(iface + ":" + gw))
  {
    CountConcat(iface + ":", gw, ':');
    CountConcat(iface, ":", ':');
    CountPositive(gw, ':');
  }

  /**
   * The route can be installed: `def_route` parses, its interface is a
   * link, and the lookup, the link-up and the route-add calls succeed.
   */
  predicate RouteInstallable(links: seq<Link>, env: Env, defRoute: string) {
    && ParseDefRoute(defRoute, env.validIP).Ok?
    && var (iface, gw) := ParseDefRoute(defRoute, env.validIP).value;
       && Lookup(links, iface).Some?
       && var l := links[Lookup(links, iface).value];
          && !env.Fails(NlLinkByName(iface))
          && !env.Fails(NlLinkSetUp(l.index))
          && !env.Fails(NlRouteAdd(l.index, gw))
  }

  /** The default-route stage (only reached with a non-empty `def_route`). */
  function DefaultRoute(st: State, env: Env, defRoute: string): (r: Step)
    ensures r.st.fs == st.fs && r.st.mounts == st.mounts && r.st.hostname == st.hostname
    ensures |r.st.links| == |st.links|
    ensures forall j :: 0 <= j < |st.links| ==> r.st.links[j] == st.links[j].(up := r.st.links[j].up)
    ensures ParseDefRoute(defRoute, env.validIP).Err? ==>
              r == Step(Fail(ParseDefRoute(defRoute, env.validIP).error), st)
    ensures r.out.Fail? ==> r.st.routes == st.routes
    // a failing lookup, link-up or route-add is returned
    ensures r.out.Pass? <==> RouteInstallable(st.links, env, defRoute)
    // a failed lookup or link-up changes nothing; a failed route-add leaves the link up
    ensures ParseDefRoute(defRoute, env.validIP).Ok? ==>
              var (iface, gw) := ParseDefRoute(defRoute, env.validIP).value;
              && (Lookup(st.links, iface).None? || env.Fails(NlLinkByName(iface)) ==>
                    r == Step(Fail(RouteLinkMissing(iface)), st))
              && (Lookup(st.links, iface).Some? && !env.Fails(NlLinkByName(iface)) ==>
                    var p := Lookup(st.links, iface).value;
                    && (env.Fails(NlLinkSetUp(st.links[p].index)) ==>
                          r == Step(Fail(LinkSetUpFailed(iface)), st))
                    && (!env.Fails(NlLinkSetUp(st.links[p].index)) && env.Fails(NlRouteAdd(st.links[p].index, gw)) ==>
                          r == Step(Fail(RouteAddFailed(defRoute)), st.(links := st.links[p := st.links[p].(up := true)]))))
    ensures r.out.Pass? ==>
              && ParseDefRoute(defRoute, env.validIP).Ok?
              && var (iface, gw) := ParseDefRoute(defRoute, env.validIP).value;
                 && Lookup(st.links, iface).Some?
                 && var p := Lookup(st.links, iface).value;
                    && r.st.links == st.links[p := st.links[p].(up := true)]
                    && r.st.routes == st.routes + [Route(st.links[p].index, DefaultDst, gw, Universe)]
  {
    match ParseDefRoute(defRoute, env.validIP)
    case Err(e) => Step(Fail(e), st)
    case Ok((iface, gw)) =>
      match Lookup(st.links, iface)
      case None => Step(Fail(RouteLinkMissing(iface)), st)
      case Some(p) =>
        if env.Fails(NlLinkByName(iface)) then Step(Fail(RouteLinkMissing(iface)), st)
        else
          var l := st.links[p];
          if env.Fails(NlLinkSetUp(l.index)) then Step(Fail(LinkSetUpFailed(iface)), st)
          else
            var st1 := st.(links := st.links[p := l.(up := true)]);
            if env.Fails(NlRouteAdd(l.index, gw)) then Step(Fail(RouteAddFailed(defRoute)), st1)
            else Step(Pass, st1.(routes := st.routes + [Route(l.index, DefaultDst, gw, Universe)]))
  }

  /** `setupIfaces`: the address stage, then the default route when one is given. */
  function SetupIfaces(st: State, env: Env, ifaces: map<string, string>, defRoute: string): (r: Step)
    ensures r.st.fs == st.fs && r.st.mounts == st.mounts && r.st.hostname == st.hostname
    // link names never change
    ensures |r.st.links| == |st.links|
    ensures forall j :: 0 <= j < |st.links| ==> r.st.links[j].name == st.links[j].name
    // the address stage never fails; an empty def_route adds no route
    ensures defRoute == [] ==> r == Step(Pass, st.(links := AssignAddrs(st.links, ifaces, env)))
    // a rejected def_route is reported before any link is set up
    ensures defRoute != [] && ParseDefRoute(defRoute, env.validIP).Err? ==>
              r == Step(Fail(ParseDefRoute(defRoute, env.validIP).error),
                        st.(links := AssignAddrs(st.links, ifaces, env)))
    // a failure adds no route; a success with a def_route adds exactly one
    ensures r.out.Fail? ==> defRoute != [] && r.st.routes == st.routes
    // a failing route stage undoes nothing: the assigned addresses stay
    ensures r.out.Fail? ==>
              forall j :: 0 <= j < |st.links| ==>
                r.st.links[j] == AssignAddrs(st.links, ifaces, env)[j].(up := r.st.links[j].up)
    ensures defRoute != [] ==> (r.out.Pass? <==> RouteInstallable(st.links, env, defRoute))
    // the route stage runs on the links the address stage left
    ensures defRoute != [] ==> r == DefaultRoute(st.(links := AssignAddrs(st.links, ifaces, env)), env, defRoute)
    ensures r.out.Pass? && defRoute != [] ==>
              && ParseDefRoute(defRoute, env.validIP).Ok?
              && var (iface, gw) := ParseDefRoute(defRoute, env.validIP).value;
                 && Lookup(st.links, iface).Some?
                 && var p := Lookup(st.links, iface).value;
                    && r.st.links == AssignAddrs(st.links, ifaces, env)[p := AssignAddrs(st.links, ifaces, env)[p].(up := true)]
                    && r.st.routes == st.routes + [Route(st.links[p].index, DefaultDst, gw, Universe)]
  {
    var links1 := AssignAddrs(st.links, ifaces, env);
    var st1 := st.(links := links1);
    if defRoute == [] then Step(Pass, st1)
    else
      var r := DefaultRoute(st1, env, defRoute);
      if ParseDefRoute(defRoute, env.validIP).Ok? then
        LookupByNames(links1, st.links, ParseDefRoute(defRoute, env.validIP).value.0);
        r
      else r
  }
}

=== FILE: os.dfy ===
/**
 * The operating-system state phase one reads and changes, and the foreign
 * calls it makes on it.  Each foreign call is a step that either succeeds,
 * with the effect stated here, or fails: it fails when its `Call` is in the
 * environment's `failing` set, and also where the kernel itself refuses
 * (reading a missing file, mounting onto a missing directory, renaming a
 * link onto a name that is taken).
 */
module Os {
  import opened Results

  /** A filesystem entry; the filesystem maps absolute paths to entries. */
  datatype Entry = File(data: string) | Dir

  type Fs = map<string, Entry>

  /** A network link as netlink reports it. */
  datatype Link = Link(index: int, name: string, alias: string, up: bool, addrs: set<string>)

  datatype Scope = Universe

  datatype Route = Route(linkIndex: int, dst: string, gw: string, scope: Scope)

  /** A mount of `fstype` whose data argument is the host path `source`. */
  datatype Mount = Mount(source: string, target: string, fstype: string)

  /** The foreign calls phase one makes, with the arguments their outcome may depend on. */
  datatype Call =
    | OsStat(path: string)
    | OsReadFile(path: string)
    | OsWriteFile(path: string)
    | OsMkdir(path: string)
    | SysMount(source: string, target: string)
    | SysSethostname(name: string)
    | NlLinkList
    | NlLinkByName(name: string)
    | NlAddrAdd(index: int, addr: string)
    | NlLinkSetUp(index: int)
    | NlRouteAdd(index: int, gw: string)
    | NlLinkSetName(index: int, newName: string)
    | NlLinkSetAlias(index: int, alias: string)
    | CpCopy(source: string)

  /**
   * What the model does not decide: which calls fail, and which strings
   * `net.ParseIP` and `netlink.ParseAddr` accept.
   */
  datatype Env = Env(failing: set<Call>, validIP: string -> bool, validCIDR: string -> bool) {
    predicate Fails(c: Call) {
      c in failing
    }
  }

  datatype State = State(
    fs: Fs,
    links: seq<Link>,
    routes: seq<Route>,
    mounts: seq<Mount>,
    hostname: string)

  /** The outcome of a step together with the state it leaves. */
  datatype Step = Step(out: Outcome, st: State)

  /** What `os.Stat` reports: the path exists, does not exist, or another error. */
  datatype Probe = Present | Absent | ProbeFailed

  function Stat(st: State, env: Env, path: string): (p: Probe)
    ensures p == Present <==> path in st.fs && !env.Fails(OsStat(path))
    ensures p == Absent <==> path !in st.fs && !env.Fails(OsStat(path))
    ensures p == ProbeFailed <==> env.Fails(OsStat(path))
  {
    if env.Fails(OsStat(path)) then ProbeFailed
    else if path in st.fs then Present
    else Absent
  }

  /** `os.ReadFile`: the contents of an existing regular file. */
  function ReadFile(st: State, env: Env, path: string): (r: Result<string>)
    ensures r.Ok? <==> path in st.fs && st.fs[path].File? && !env.Fails(OsReadFile(path))
    ensures r.Ok? ==> st.fs[path] == File(r.value)
  {
    if path in st.fs && st.fs[path].File? && !env.Fails(OsReadFile(path)) then Ok(st.fs[path].data)
    else Err(ReadFailed(path))
  }

  /** `os.WriteFile`: create or replace a regular file; on failure nothing changes. */
  function WriteFile(st: State, env: Env, path: string, data: string): (r: Step)
    ensures r.out.Pass? ==> r.st == st.(fs := st.fs[path := File(data)])
    ensures r.out.Fail? ==> r.st == st
  {
    if env.Fails(OsWriteFile(path)) || (path in st.fs && st.fs[path].Dir?) then Step(Fail(WriteFailed(path)), st)
    else Step(Pass, st.(fs := st.fs[path := File(data)]))
  }

  /** `os.Mkdir` with its error ignored: an existing path or a failure leaves the state as it was. */
  function Mkdir(st: State, env: Env, path: string): (r: State)
    ensures path in st.fs || env.Fails(OsMkdir(path)) ==> r == st
    ensures path !in st.fs && !env.Fails(OsMkdir(path)) ==> r == st.(fs := st.fs[path := Dir])
  {
    if path in st.fs || env.Fails(OsMkdir(path)) then st
    else st.(fs := st.fs[path := Dir])
  }

  /** No two links share a name (the kernel keeps link names unique). */
  ghost predicate UniqueNames(links: seq<Link>) {
    forall i, j :: 0 <= i < |links| && 0 <= j < |links| && i != j ==> links[i].name != links[j].name
  }

  function Names(links: seq<Link>): set<string> {
    set l | l in links :: l.name
  }

  /** The position of the first link with the given name (the kernel's lookup by name). */
  function Lookup(links: seq<Link>, name: string): (r: Option<nat>)
    ensures r.Some? ==>
              && r.value < |links| && links[r.value].name == name
              && forall j :: 0 <= j < r.value ==> links[j].name != name
    ensures r.None? ==> forall j :: 0 <= j < |links| ==> links[j].name != name
    decreases |links|
  {
    if links == [] then None
    else if links[0].name == name then Some(0)
    else
      match Lookup(links[1..], name)
      case None => None
      case Some(k) => Some(k + 1)
  }
}

=== FILE: results.dfy ===
/** Error values and the small failure-carrying datatypes shared by every module. */
module Results {

  datatype Option<+T> = None | Some(value: T)

  /** The errors phase one can return; each names the operation that failed. */
  datatype Error =
    | ReadFailed(path: string)
    | WriteFailed(path: string)
    | StatFailed(path: string)
    | HostnameUnavailable
    | SethostnameFailed(name: string)
    | MountFailed(host: string, guest: string)
    | BadOption(option: string)
    | UnsupportedDriver(driver: string)
    | DecodeFailed(reason: string)
    | BadRouteFormat(defRoute: string)
    | BadRouteIP(defRoute: string)
    | RouteLinkMissing(iface: string)
    | LinkSetUpFailed(iface: string)
    | RouteAddFailed(defRoute: string)
    | LinkListFailed
    | CopyFailed(source: string)

  /** A value or the error that stopped its computation (Go's `(T, error)` pair). */
  datatype Result<+T> = Ok(value: T) | Err(error: Error)

  /** The outcome of a step that returns only an `error`. */
  datatype Outcome = Pass | Fail(error: Error)
}

=== FILE: startup.dfy ===
/**
 * The guest as phase one changes it in place: the filesystem, the kernel's
 * link table, routes, mounts and host name are fields, and each function of
 * pkg/startup/phase1.go is a method proved to leave the state, and return
 * the outcome, that its specification function in the other modules gives.
 */
module Startup {
  import opened Results
  import opened Strings
  import opened Os
  import Config
  import Mounts
  import Network
  import Identity
  import Injection
  import Boot

  class Guest {
    var fs: Fs
    var links: seq<Link>
    var routes: seq<Route>
    var mounts: seq<Mount>
    var hostname: string
    const env: Env

    function Current(): State
      reads this
    {
      State(fs, links, routes, mounts, hostname)
    }

    /** The kernel keeps link names unique. */
    ghost predicate Valid()
      reads this
    {
      UniqueNames(links)
    }

    constructor(env: Env, st: State)
      requires UniqueNames(st.links)
      ensures Current() == st && this.env == env && Valid()
    {
      this.env := env;
      fs, links, routes, mounts, hostname := st.fs, st.links, st.routes, st.mounts, st.hostname;
    }

    // -------------------------------------------------------------------
    // Foreign calls

    method Stat(path: string) returns (p: Probe)
      ensures p == Os.Stat(Current(), env, path)
    {
      if env.Fails(OsStat(path)) {
        p := ProbeFailed;
      } else if path in fs {
        p := Present;
      } else {
        p := Absent;
      }
    }

    method ReadFile(path: string) returns (r: Result<string>)
      ensures r == Os.ReadFile(Current(), env, path)
    {
      if path in fs && fs[path].File? && !env.Fails(OsReadFile(path)) {
        r := Ok(fs[path].data);
      } else {
        r := Err(ReadFailed(path));
      }
    }

    method WriteFile(path: string, data: string) returns (o: Outcome)
      modifies this
      ensures Step(o, Current()) == Os.WriteFile(old(Current()), env, path, data)
    {
      if env.Fails(OsWriteFile(path)) || (path in fs && fs[path].Dir?) {
        return Fail(WriteFailed(path));
      }
      fs := fs[path := File(data)];
      o := Pass;
    }

    method Mkdir(path: string)
      modifies this
      ensures Current() == Os.Mkdir(old(Current()), env, path)
    {
      if path !in fs && !env.Fails(OsMkdir(path)) {
        fs := fs[path := Dir];
      }
    }

    /** `netlink.LinkByName`: the first link with the name, by a scan of the table. */
    method FindLink(name: string) returns (p: Option<nat>)
      ensures p == Lookup(links, name)
      ensures p.Some? ==> p.value < |links| && links[p.value].name == name
      ensures p.None? <==> name !in Names(links)
    {
      var i := 0;
      while i < |links|
        invariant 0 <= i <= |links|
        invariant forall j :: 0 <= j < i ==> links[j].name != name
      {
        if links[i].name == name {
          return Some(i);
        }
        i := i + 1;
      }
      p := None;
    }

    // -------------------------------------------------------------------
    // Mounts

    method MountDir(host: string, guest: string) returns (o: Outcome)
      modifies this
      ensures Step(o, Current()) == Mounts.MountDir(old(Current()), env, host, guest)
    {
      if guest !in fs || !fs[guest].Dir? || env.Fails(SysMount(host, guest)) {
        return Fail(MountFailed(host, guest));
      }
      mounts := mounts + [Mount(host, guest, Mounts.HostFs)];
      o := Pass;
    }

    method UmlSetup(hostLab: bool) returns (o: Outcome)
      requires Valid()
      modifies this
      ensures Step(o, Current()) == Mounts.UmlSetup(old(Current()), env, hostLab)
      ensures Valid()
    {
      if hostLab {
        Mkdir(Mounts.HostLabDir);
        o := MountDir(Mounts.HostLabDir, Mounts.HostLabDir);
        if o.Fail? {
          return;
        }
      }
      Mkdir(Mounts.RunUmlGuest);
      o := MountDir(Mounts.RunUml, Mounts.RunUmlGuest);
    }

    // -------------------------------------------------------------------
    // Network

    /** `renameVecs`: one pass over the link list taken at the start. */
    method RenameVecs() returns (o: Outcome)
      requires Valid()
      modifies this
      ensures Step(o, Current()) == Network.RenameVecs(old(Current()), env)
      ensures Valid()
    {
      if env.Fails(NlLinkList) {
        return Fail(LinkListFailed);
      }
      var ifaces := links;
      var i := 0;
      while i < |ifaces|
        invariant 0 <= i <= |ifaces|
        invariant |links| == |ifaces|
        invariant forall j :: 0 <= j < i ==> links[j] == Network.RenameLink(ifaces[j], Names(ifaces), env)
        invariant forall j :: i <= j < |ifaces| ==> links[j] == ifaces[j]
        invariant fs == old(fs) && routes == old(routes) && mounts == old(mounts) && hostname == old(hostname)
      {
        var l := ifaces[i];
        var next := Network.RenameRule(l.name);
        if next.Some? {
          var n := next.value;
          Network.TakenAsAtStart(ifaces, links, env, i);
          var taken := FindLink(n);
          var renamed := l;
          if taken.None? && !env.Fails(NlLinkSetName(l.index, n)) {
            renamed := renamed.(name := n);
          }
          if !env.Fails(NlLinkSetAlias(l.index, l.name)) {
            renamed := renamed.(alias := l.name);
          }
          assert renamed == Network.RenameLink(l, Names(ifaces), env);
          links := links[i := renamed];
        }
        i := i + 1;
      }
      assert links == Network.Renamed(ifaces, env);
      Network.RenamedKeepsNamesUnique(ifaces, env);
      o := Pass;
    }

    /** One entry of the address loop: give the link named `iface` the address `addr`. */
    method AddAddress(iface: string, addr: string)
      modifies this`links
      ensures match Lookup(old(links), iface)
              case None => links == old(links)
              case Some(p) => links == old(links)[p := Network.AssignLink(old(links)[p], map[iface := addr], env)]
    {
      if addr == [] {
        return;
      }
      var p := FindLink(iface);
      if p.None? || env.Fails(NlLinkByName(iface)) || !env.validCIDR(addr) {
        return;
      }
      var l := links[p.value];
      if env.Fails(NlAddrAdd(l.index, addr)) {
        return;
      }
      links := links[p.value := l.(addrs := l.addrs + {addr})];
    }

    /** The address loop of `setupIfaces`, in whatever order the map yields its keys. */
    method AssignAddrs(ifaces: map<string, string>)
      modifies this`links
      ensures links == Network.AssignAddrs(old(links), ifaces, env)
    {
      var links0 := links;
      var todo := ifaces.Keys;
      assert ifaces - todo == map[];
      assert links == Network.AssignAddrs(links0, ifaces - todo, env);
      while todo != {}
        invariant todo <= ifaces.Keys
        invariant links == Network.AssignAddrs(links0, ifaces - todo, env)
        decreases |todo|
      {
        var iface :| iface in todo;
        ghost var done := ifaces - (todo - {iface});
        assert done - {iface} == ifaces - todo;
        Network.AssignAddrsAddsOne(links0, done, iface, env);
        Network.LookupByNames(links, links0, iface);
        AddAddress(iface, ifaces[iface]);
        match Lookup(links0, iface) {
          case None =>
          case Some(p) =>
            assert Network.AssignLink(links0[p], map[iface := ifaces[iface]], env)
                == Network.AssignLink(links0[p], done, env);
        }
        todo := todo - {iface};
      }
      assert ifaces - todo == ifaces;
    }

    /** The default-route stage of `setupIfaces`. */
    method DefaultRoute(defRoute: string) returns (o: Outcome)
      modifies this
      ensures Step(o, Current()) == Network.DefaultRoute(old(Current()), env, defRoute)
    {
      var ia := Split(defRoute, ':');
      if |ia| != 2 {
        return Fail(BadRouteFormat(defRoute));
      }
      if !env.validIP(ia[1]) {
        return Fail(BadRouteIP(defRoute));
      }
      var p := FindLink(ia[0]);
      if p.None? || env.Fails(NlLinkByName(ia[0])) {
        return Fail(RouteLinkMissing(ia[0]));
      }
      var l := links[p.value];
      if env.Fails(NlLinkSetUp(l.index)) {
        return Fail(LinkSetUpFailed(ia[0]));
      }
      links := links[p.value := l.(up := true)];
      if env.Fails(NlRouteAdd(l.index, ia[1])) {
        return Fail(RouteAddFailed(defRoute));
      }
      routes := routes + [Route(l.index, Network.DefaultDst, ia[1], Universe)];
      o := Pass;
    }

    /** `setupIfaces`: addresses best-effort, then the route when one is given. */
    method SetupIfaces(ifaces: map<string, string>, defRoute: string) returns (o: Outcome)
      requires Valid()
      modifies this
      ensures Step(o, Current()) == Network.SetupIfaces(old(Current()), env, ifaces, defRoute)
      ensures Valid()
    {
      AssignAddrs(ifaces);
      o := Pass;
      if defRoute != [] {
        o := DefaultRoute(defRoute);
      }
    }

    // -------------------------------------------------------------------
    // Host identity

    /** `hostname`. */
    method Hostname(name: string) returns (o: Outcome)
      modifies this
      ensures Step(o, Current()) == Identity.SetHostname(old(Current()), env, name)
    {
      o := WriteFile(Identity.HostnamePath, name);
      if o.Fail? {
        return;
      }
      if env.Fails(SysSethostname(name)) {
        return Fail(SethostnameFailed(name));
      }
      hostname := name;
    }

    /** `hostsFile`. */
    method HostsFile(name: string) returns (o: Outcome)
      modifies this
      ensures Step(o, Current()) == Identity.PrependHosts(old(Current()), env, name)
    {
      var orig := ReadFile(Identity.HostsPath);
      if orig.Err? {
        return Fail(orig.error);
      }
      o := WriteFile(Identity.HostsPath, Identity.HostsLine(name) + orig.value);
    }

    /** `setupHosts`. */
    method SetupHosts(name: string) returns (o: Outcome)
      requires Valid()
      modifies this
      ensures Step(o, Current()) == Identity.SetupHosts(old(Current()), env, name)
      ensures Valid()
    {
      var probe := Stat(Identity.Marker);
      if probe == ProbeFailed {
        return Fail(StatFailed(Identity.Marker));
      } else if probe == Present {
        return Pass;
      }
      o := Hostname(name);
      if o.Fail? {
        return;
      }
      o := HostsFile(name);
      if o.Fail? {
        return;
      }
      o := WriteFile(Identity.Marker, []);
    }

    // -------------------------------------------------------------------
    // File injection

    /** One stat-then-copy stage of `copyInFiles`. */
    method CopyTree(root: string) returns (o: Outcome)
      modifies this
      ensures Step(o, Current()) == Injection.CopyTree(old(Current()), env, root)
    {
      var probe := Stat(root);
      if probe == ProbeFailed {
        return Fail(StatFailed(root));
      } else if probe == Absent {
        return Pass;
      }
      if env.Fails(CpCopy(root)) {
        return Fail(CopyFailed(root));
      }
      fs := Injection.Overlay(fs, root);
      o := Pass;
    }

    /** `copyInFiles`: the shared tree, then the machine's own. */
    method CopyInFiles(name: string) returns (o: Outcome)
      requires Valid()
      modifies this
      ensures Step(o, Current()) == Injection.CopyInFiles(old(Current()), env, name)
      ensures Valid()
    {
      o := CopyTree(Injection.SharedDir);
      if o.Fail? {
        return;
      }
      o := CopyTree(Injection.MachineDir(name));
    }

    // -------------------------------------------------------------------
    // Phase one

    /** `StartPhaseOne`. */
    method StartPhaseOne(src: Config.BootSources, kf: Config.Decoder) returns (o: Outcome)
      requires Valid()
      modifies this
      ensures Step(o, Current()) == Boot.PhaseOne(old(Current()), env, src, kf)
      ensures Valid()
    {
      var c := Config.LoadConf(src, kf);
      if c.Err? {
        return Fail(c.error);
      }
      o := RunStages(c.value);
    }

    /** The stages of `StartPhaseOne` once the configuration is loaded. */
    method RunStages(conf: Config.VConf) returns (o: Outcome)
      requires Valid()
      modifies this
      ensures Step(o, Current()) == Boot.Run(old(Current()), env, conf, Boot.Stages(conf))
      ensures Valid()
    {
      ghost var st0 := Current();
      ghost var tail := [Boot.Interfaces, Boot.Hosts, Boot.Files];
      if conf.driver == Config.UmlDriver {
        assert Boot.Stages(conf) == [Boot.UmlMounts] + ([Boot.RenameLinks] + tail);
        o := UmlSetup(conf.hostLab);
        if o.Fail? {
          Boot.SequenceFailed(st0, Boot.Stepper(env, conf), Boot.UmlMounts, [Boot.RenameLinks] + tail);
          return;
        }
        Boot.SequencePassed(st0, Boot.Stepper(env, conf), Boot.UmlMounts, [Boot.RenameLinks] + tail);
        ghost var st1 := Current();
        o := RenameVecs();
        if o.Fail? {
          Boot.SequenceFailed(st1, Boot.Stepper(env, conf), Boot.RenameLinks, tail);
          return;
        }
        Boot.SequencePassed(st1, Boot.Stepper(env, conf), Boot.RenameLinks, tail);
      }
      assert Boot.Stages(conf) == (if conf.driver == Config.UmlDriver then [Boot.UmlMounts, Boot.RenameLinks] else []) + tail;
      o := RunCommonStages(conf);
    }

    /** The stages every driver runs: interfaces, then hosts, then files. */
    method RunCommonStages(conf: Config.VConf) returns (o: Outcome)
      requires Valid()
      modifies this
      ensures Step(o, Current()) == Boot.Run(old(Current()), env, conf, [Boot.Interfaces, Boot.Hosts, Boot.Files])
      ensures Valid()
    {
      ghost var st := Current();
      assert [Boot.Interfaces, Boot.Hosts, Boot.Files] == [Boot.Interfaces] + [Boot.Hosts, Boot.Files];
      Boot.SequenceAppend(st, Boot.Stepper(env, conf), [Boot.Interfaces], [Boot.Hosts, Boot.Files]);
      o := RunOneStage(conf, Boot.Interfaces);
      if o.Fail? {
        return;
      }
      ghost var st1 := Current();
      assert [Boot.Hosts, Boot.Files] == [Boot.Hosts] + [Boot.Files];
      Boot.SequenceAppend(st1, Boot.Stepper(env, conf), [Boot.Hosts], [Boot.Files]);
      o := RunOneStage(conf, Boot.Hosts);
      if o.Fail? {
        return;
      }
      o := RunOneStage(conf, Boot.Files);
    }

    /** One of the stages every driver runs, on its own. */
    method RunOneStage(conf: Config.VConf, stage: Boot.Stage) returns (o: Outcome)
      requires stage == Boot.Interfaces || stage == Boot.Hosts || stage == Boot.Files
      requires Valid()
      modifies this
      ensures Step(o, Current()) == Boot.Run(old(Current()), env, conf, [stage])
      ensures Valid()
    {
      ghost var st := Current();
      assert [stage] == [stage] + [];
      if stage == Boot.Interfaces {
        o := SetupIfaces(conf.interfaces, conf.defaultRoute);
      } else if stage == Boot.Hosts {
        o := SetupHosts(conf.hostName);
      } else {
        o := CopyInFiles(conf.hostName);
      }
      if o.Fail? {
        Boot.SequenceFailed(st, Boot.Stepper(env, conf), stage, []);
      } else {
        Boot.SequencePassed(st, Boot.Stepper(env, conf), stage, []);
      }
    }
  }
}

=== FILE: strings.dfy ===
/**
 * The three pieces of Go's `strings` package that phase one relies on:
 * `HasPrefix`, `Split` with a one-character separator, and `Fields`.
 * Each is given with the properties its callers depend on, and `Split`
 * and `Fields` with their round trips against joining.
 */
module Strings {

  predicate HasPrefix(s: string, p: string) {
    |p| <= |s| && s[..|p|] == p
  }

  /** Go's `unicode.IsSpace`: the characters with the Unicode White_Space property. */
  predicate IsSpace(c: char) {
    || c == ' '
    || '\t' <= c <= '\r'
    || c == '\U{0085}' || c == '\U{00A0}' || c == '\U{1680}'
    || '\U{2000}' <= c <= '\U{200A}'
    || c == '\U{2028}' || c == '\U{2029}' || c == '\U{202F}' || c == '\U{205F}'
    || c == '\U{3000}'
  }

  /** Number of occurrences of `c` in `s`. */
  function Count(s: string, c: char): nat
    decreases |s|
  {
    if s == [] then 0 else (if s[0] == c then 1 else 0) + Count(s[1..], c)
  }

  lemma {:induction false} CountConcat(a: string, b: string, c: char)
    ensures Count(a + b, c) == Count(a, c) + Count(b, c)
    decreases |a|
  {
    if a != [] {
      assert (a + b)[1..] == a[1..] + b;
      CountConcat(a[1..], b, c);
    } else {
      assert a + b == b;
    }
  }

  lemma {:induction false} CountPositive(s: string, c: char)
    requires c in s
    ensures Count(s, c) > 0
    decreases |s|
  {
    if s[0] != c {
      assert c in s[1..];
      CountPositive(s[1..], c);
    }
  }

  /**
   * `strings.Split(s, string(c))`: the pieces of `s` between occurrences of `c`.
   * There is always one more piece than separators, so the empty string
   * splits into one empty piece.
   */
  function Split(s: string, c: char): (parts: seq<string>)
    ensures |parts| == Count(s, c) + 1
    ensures forall i :: 0 <= i < |parts| ==> c !in parts[i]
    decreases |s|
  {
    if s == [] then [[]]
    else
      var rest := Split(s[1..], c);
      if s[0] == c then [[]] + rest
      else [[s[0]] + rest[0]] + rest[1..]
  }

  /** `strings.Join(parts, string(c))`. */
  function Join(parts: seq<string>, c: char): string
    requires |parts| > 0
    decreases |parts|
  {
    if |parts| == 1 then parts[0] else parts[0] + [c] + Join(parts[1..], c)
  }

  lemma {:induction false} JoinHead(x: string, parts: seq<string>, c: char)
    requires |parts| > 0
    ensures Join([x + parts[0]] + parts[1..], c) == x + Join(parts, c)
  {
    var q := [x + parts[0]] + parts[1..];
    assert q[1..] == parts[1..];
  }

  /** Joining the pieces with the separator gives back the string. */
  lemma {:induction false} JoinSplit(s: string, c: char)
    ensures Join(Split(s, c), c) == s
    decreases |s|
  {
    if s != [] {
      JoinSplit(s[1..], c);
      var rest := Split(s[1..], c);
      if s[0] == c {
        assert ([[]] + rest)[1..] == rest;
        assert s == [c] + s[1..];
      } else {
        JoinHead([s[0]], rest, c);
        assert s == [s[0]] + s[1..];
      }
    }
  }

  lemma {:induction false} SplitNoSeparator(a: string, c: char)
    requires c !in a
    ensures Split(a, c) == [a]
    decreases |a|
  {
    if a != [] {
      SplitNoSeparator(a[1..], c);
      assert a == [a[0]] + a[1..];
    }
  }

  lemma {:induction false} SplitAtSeparator(a: string, b: string, c: char)
    requires c !in a
    ensures Split(a + [c] + b, c) == [a] + Split(b, c)
    decreases |a|
  {
    var s := a + [c] + b;
    if a == [] {
      assert s[1..] == b;
    } else {
      assert s[1..] == a[1..] + [c] + b;
      SplitAtSeparator(a[1..], b, c);
      assert a == [a[0]] + a[1..];
    }
  }

  /** Splitting a join of separator-free pieces gives back the pieces. */
  lemma {:induction false} SplitJoin(parts: seq<string>, c: char)
    requires |parts| > 0
    requires forall i :: 0 <= i < |parts| ==> c !in parts[i]
    ensures Split(Join(parts, c), c) == parts
    decreases |parts|
  {
    if |parts| == 1 {
      SplitNoSeparator(parts[0], c);
    } else {
      SplitJoin(parts[1..], c);
      SplitAtSeparator(parts[0], Join(parts[1..], c), c);
    }
  }

  /**
   * A string splits into exactly two pieces precisely when it is two
   * separator-free halves around one separator.
   */
  lemma SplitInTwo(s: string, c: char)
    ensures |Split(s, c)| == 2 <==> Count(s, c) == 1
    ensures |Split(s, c)| == 2 ==> s == Split(s, c)[0] + [c] + Split(s, c)[1]
  {
    var parts := Split(s, c);
    if |parts| == 2 {
      JoinSplit(s, c);
      assert Join(parts, c) == parts[0] + [c] + Join(parts[1..], c);
    }
  }

  lemma SplitPair(a: string, b: string, c: char)
    requires c !in a && c !in b
    ensures Split(a + [c] + b, c) == [a, b]
  {
    SplitAtSeparator(a, b, c);
    SplitNoSeparator(b, c);
  }

  /** A non-empty run of non-space characters. */
  predicate IsWord(w: string) {
    w != [] && forall i :: 0 <= i < |w| ==> !IsSpace(w[i])
  }

  /** The longest prefix of `s` without a space. */
  function Word(s: string): (w: string)
    ensures |w| <= |s| && w == s[..|w|]
    ensures forall i :: 0 <= i < |w| ==> !IsSpace(w[i])
    ensures |w| < |s| ==> IsSpace(s[|w|])
    ensures s != [] && !IsSpace(s[0]) ==> w != []
    decreases |s|
  {
    if s == [] || IsSpace(s[0]) then [] else [s[0]] + Word(s[1..])
  }

  /** `strings.Fields`: the maximal runs of non-space characters, in order. */
  function Fields(s: string): (fields: seq<string>)
    ensures forall i :: 0 <= i < |fields| ==> IsWord(fields[i])
    decreases |s|
  {
    if s == [] then []
    else if IsSpace(s[0]) then Fields(s[1..])
    else
      var w := Word(s);
      [w] + Fields(s[|w|..])
  }

  /** Words joined by single spaces (the inverse of `Fields` on words). */
  function Unwords(ws: seq<string>): string {
    if ws == [] then [] else Join(ws, ' ')
  }

  lemma {:induction false} WordOfWord(w: string, rest: string)
    requires IsWord(w)
    requires rest == [] || IsSpace(rest[0])
    ensures Word(w + rest) == w
    decreases |w|
  {
    var s := w + rest;
    if |w| == 1 {
      assert s[1..] == rest;
    } else {
      assert s[1..] == w[1..] + rest;
      WordOfWord(w[1..], rest);
      assert w == [w[0]] + w[1..];
    }
  }

  /** A word followed by the end of the string is its only field. */
  lemma FieldsOfWord(w: string)
    requires IsWord(w)
    ensures Fields(w) == [w]
  {
    WordOfWord(w, []);
    assert w + [] == w;
    assert w[|w|..] == [];
  }

  /** A word followed by a space is the first field. */
  lemma FieldsOfWordSpace(w: string, tail: string)
    requires IsWord(w)
    ensures Fields(w + [' '] + tail) == [w] + Fields(tail)
  {
    var s := w + [' '] + tail;
    WordOfWord(w, [' '] + tail);
    assert w + ([' '] + tail) == s;
    assert s[|w|..] == [' '] + tail;
    assert ([' '] + tail)[1..] == tail;
  }

  /** Only white space. */
  predicate AllSpace(ws: string) {
    forall i :: 0 <= i < |ws| ==> IsSpace(ws[i])
  }

  /** Leading white space of any kind and length is skipped. */
  lemma {:induction false} FieldsSkipsSpaces(ws: string, s: string)
    requires AllSpace(ws)
    ensures Fields(ws + s) == Fields(s)
    decreases |ws|
  {
    if ws != [] {
      assert (ws + s)[0] == ws[0];
      assert (ws + s)[1..] == ws[1..] + s;
      FieldsSkipsSpaces(ws[1..], s);
    } else {
      assert ws + s == s;
    }
  }

  /** A word ended by a non-empty run of white space is the first field. */
  lemma FieldsOfWordSpaces(w: string, ws: string, tail: string)
    requires IsWord(w) && ws != [] && AllSpace(ws)
    ensures Fields(w + ws + tail) == [w] + Fields(tail)
  {
    var s := w + ws + tail;
    WordOfWord(w, ws + tail);
    assert w + (ws + tail) == s;
    assert s[|w|..] == ws + tail;
    FieldsSkipsSpaces(ws, tail);
  }

  /** Trailing white space (the newline that ends /proc/cmdline) adds no field. */
  lemma {:induction false} FieldsIgnoresTrailingSpaces(s: string, ws: string)
    requires AllSpace(ws)
    ensures Fields(s + ws) == Fields(s)
    decreases |s|
  {
    if s == [] {
      assert s + ws == ws + [];
      FieldsSkipsSpaces(ws, []);
    } else if IsSpace(s[0]) {
      assert (s + ws)[0] == s[0];
      assert (s + ws)[1..] == s[1..] + ws;
      FieldsIgnoresTrailingSpaces(s[1..], ws);
    } else {
      var w := Word(s);
      var rest := s[|w|..];
      assert s == w + rest;
      WordOfWord(w, rest + ws);
      assert s + ws == w + (rest + ws);
      assert (s + ws)[|w|..] == rest + ws;
      FieldsIgnoresTrailingSpaces(rest, ws);
    }
  }

  /** `Fields` recovers the words of a space-separated line. */
  lemma {:induction false} FieldsUnwords(ws: seq<string>)
    requires forall i :: 0 <= i < |ws| ==> IsWord(ws[i])
    ensures Fields(Unwords(ws)) == ws
    decreases |ws|
  {
    if |ws| == 1 {
      FieldsOfWord(ws[0]);
    } else if |ws| > 1 {
      FieldsOfWordSpace(ws[0], Join(ws[1..], ' '));
      FieldsUnwords(ws[1..]);
    }
  }
}
